=== FILE: README.md ===
# SMOC in Dafny

SMOC ("S/MIME Outlook Connector") takes a plain-text business document (a *missive*), turns it
into an e-mail, signs it with the sender's key and envelopes it for one external recipient. It
then sends it over SMTP, envelopes the same signed message a second time for the sender's own
certificate, and appends that copy to the sender's "Sent items" folder over IMAP.

This project models the logic that sits between SMOC's library calls, and proves what that logic
guarantees:

- **CMS algorithm table** (`Smime`): the closed, case-sensitive table of 31 names that
  `getCmsContentEncryptor` maps onto BouncyCastle's CMS constants.
- **Header carry-over** (`Smime`): envelopes copy the original body's header lines and drop
  every line whose ASCII-lower-cased text starts with `content-`. The signer copies every line.
- **Configuration validation** (`Configuration`): `ConfigReader.parse` builds a map of the
  non-empty entries. It strikes names out of the required list with first-occurrence removal,
  and rejects four things: an empty file, a required key with an empty value, required names
  left over, and (as a consequence) a required name listed twice.
- **Signer set-up** (`Signer`): the capability list of section 2.5.2 of RFC 5751, the
  encryption key preference of section 2.5.3 of RFC 5751, the signer info and the certificate
  store.
- **Key holders** (`SenderKeys`, `RecipientKeys`): key store alias lookup and PEM certificate
  reading.
- **SMTP mailer** (`SmtpMail`): the session properties, the port, the From/To strings and the
  composed body.
- **Orchestrator** (`Orchestrator.Smoc`): the two configuration flags, the set-up of the
  mailer and the synchronizer, `validateConfiguration`, and the fixed ten-stage chain of
  `sendMissive`.

Form of the model:

- **Cryptography and transports are abstract.** Each library call that can throw is an
  arbitrary predicate in `Library.Environment`: it says whether the library accepts the call.
  A signature or envelope is a free term that records what it was built from. Files, key
  stores, PEM files, JVM system properties, security providers, the SMTP server and the IMAP
  accounts are all fields of the environment.
- **Stateful code stays imperative.** Classes with fields and loops with invariants are used
  wherever the Java code mutates state. Each such method is proved against a specification
  function (`Parse` against `Validate`, `Sign` against `Signature`, `EncryptFor` against
  `Envelope`, `SendMissive` against `Missive`).
- **Exceptions are data.** They become `Errors.SmocError` values. A Java constructor that can
  throw becomes a static method returning a `Result`.

`SendMissive` also returns a ghost `log`: one event per completed stage. `MissiveFollowsTheStages`
proves the following about every run:

- the stages complete in the fixed order;
- each stage produced what that stage computes from the inputs and the earlier results;
- the call returns true exactly when all ten stages completed;
- otherwise it fails with the error of the first stage that did not complete.

From this, `SentMessageIsSignedThenEnveloped`, `EnvelopesShareTheSignedMessage` and
`SentAndArchivedMessages` derive what the sent and archived messages are.

Three behaviours of the code that the model keeps as they are:

- **Failures after the send.** A failure while enveloping for the sender or appending to Sent
  items is an exception thrown after the message was already sent, so `sendMissive` reports
  the whole call as failed. `Orchestrator.Missive` propagates that failure in the same way.
- **Where the envelope headers come from.** `encryptForRecipient` and `encryptForSender` copy
  the header lines of the original (composed) body, not those of the signed message.
  `Orchestrator.EnvelopeHeadersComeFromTheBody` shows that both give the same lines here,
  because the signer keeps every line. In a modelled run the filter removes nothing: the
  composed body has only its From, To and Subject lines, because `saveChanges` is not modelled.
  In Java the envelopes would also carry the MIME-Version and Message-ID lines it adds.
- **Header filtering by the signer.** `SmocSigner.sign` copies every header line of the body
  onto the signed message, content headers included, and `Signer.SmocSigner.Sign` models that.

## Model

| member | source | states |
|---|---|---|
| Configuration.ConfigReader.Open | branches/dev201209/src/org/smoc/utils/ConfigReader.java:26-37 | a missing configuration file fails with ConfigurationFileNotFound carrying its name; otherwise a reader bound to that file |
| Configuration.ConfigReader.Parse | branches/dev201209/src/org/smoc/utils/ConfigReader.java:46-120 | the entry loop returns exactly `Validate` of the loaded table (loop invariants: map of non-empty entries so far, required names left, no empty required key yet); an unreadable file is an I/O error |
| Configuration.Validate | branches/dev201209/src/org/smoc/utils/ConfigReader.java:46-120 | an empty table is InvalidConfiguration; every value of a successful result is non-empty |
| Configuration.RemoveFirst | branches/dev201209/src/org/smoc/utils/ConfigReader.java:91-93 | ArrayList.remove(Object): one element shorter when the name is listed, unchanged when it is not |
| Configuration.RemoveFirstCutsFirst | branches/dev201209/src/org/smoc/utils/ConfigReader.java:91-93 | only the first occurrence is removed; what precedes and follows it stays in order |
| Configuration.RemoveFirstCounts | branches/dev201209/src/org/smoc/utils/ConfigReader.java:91-93 | as a multiset, remove takes away exactly one copy of the name |
| Configuration.RemainingCounts | branches/dev201209/src/org/smoc/utils/ConfigReader.java:85-93 | the required names left are, as a multiset, the required list minus the keys given a non-empty value |
| Configuration.RemainingMembership | branches/dev201209/src/org/smoc/utils/ConfigReader.java:112-115 | a name is still listed exactly when it is required more often than it was given a value |
| Configuration.FirstEmptyRequiredIsFirst | branches/dev201209/src/org/smoc/utils/ConfigReader.java:95-101 | the reported key belongs to the first entry with an empty value and a required key; none exists exactly when no such entry exists |
| Configuration.NonEmptyEntriesValues | branches/dev201209/src/org/smoc/utils/ConfigReader.java:85-88 | every value of the map is non-empty and is the value of an entry of the table |
| Configuration.NonEmptyEntriesKeep | branches/dev201209/src/org/smoc/utils/ConfigReader.java:85-88 | every entry with a non-empty value is in the map unchanged |
| Configuration.NonEmptyKeysAreMapKeys | branches/dev201209/src/org/smoc/utils/ConfigReader.java:85-93 | a key counts as given a value exactly when it is a key of the map |
| Configuration.NonEmptyKeysAtMostOnce | branches/dev201209/src/org/smoc/utils/ConfigReader.java:76-93 | with distinct keys in the table, a key is given a value at most once |
| Configuration.ValidateKeepsNonEmptyEntries | branches/dev201209/src/org/smoc/utils/ConfigReader.java:85-88 | on success every non-empty entry, required or not, is in the result unchanged, and nothing else is (no empty value ever appears) |
| Configuration.ValidateCoversRequired | branches/dev201209/src/org/smoc/utils/ConfigReader.java:85-119 | on success every required name is a key of the result with a non-empty value |
| Configuration.ValidateRejectsEmptyRequired | branches/dev201209/src/org/smoc/utils/ConfigReader.java:98-101 | a required key with an empty value fails with InvalidPropertyValue naming the first such entry, at or before it |
| Configuration.ValidateRejectsUndefined | branches/dev201209/src/org/smoc/utils/ConfigReader.java:112-115 | with no empty required value, a required name never given a value fails, and the error lists it and only required names: as a multiset, the required list minus the keys given a value |
| Configuration.ValidateRejectsDuplicateRequired | branches/dev201209/src/org/smoc/utils/ConfigReader.java:91-115 | a name listed twice as required always fails the parse |
| Configuration.EmptyEntryKeepsMap | branches/dev201209/src/org/smoc/utils/ConfigReader.java:85-107 | an entry with an empty value leaves the result map unchanged |
| Configuration.EmptyEntryKeepsRemaining | branches/dev201209/src/org/smoc/utils/ConfigReader.java:85-107 | an entry with an empty value strikes out no required name |
| Configuration.OptionalEntryIgnored | branches/dev201209/src/org/smoc/utils/ConfigReader.java:98-106 | an empty entry whose key is not required is never the reported empty required key |
| Configuration.ValidateIgnoresEmptyOptional | branches/dev201209/src/org/smoc/utils/ConfigReader.java:103-106 | an optional key with an empty value changes nothing: the table without it parses to the same result |
| Smime.CmsNameSelectsConstant | SMOC/src/org/smoc/cryptograhy/Smime.java:184-308 | each of the 31 constants' own name selects that constant |
| Smime.CmsTableInjective | SMOC/src/org/smoc/cryptograhy/Smime.java:184-308 | distinct names select distinct constants, both directions |
| Smime.CmsConstantIsExact | SMOC/src/org/smoc/cryptograhy/Smime.java:184-308 | whatever a case of the switch accepts is the constant of exactly that name (case-sensitive) |
| Smime.CmsContentEncryptor | SMOC/src/org/smoc/cryptograhy/Smime.java:177-315 | an accepted name is exactly the selected constant's name; every other name fails with InvalidCmsAlgorithm carrying that name |
| Smime.CmsTableIsClosed | SMOC/src/org/smoc/cryptograhy/Smime.java:177-315 | a name is accepted exactly when it is the name of some CMS constant |
| Smime.CmsLookupExamples | SMOC/src/org/smoc/cryptograhy/Smime.java:177-315 | "AES256_CBC" is accepted; "aes128_cbc", "FOO" and "DES_CBC" fail with their names |
| Smime.ToLowerCase | SMOC/src/org/smoc/cryptograhy/Smime.java:97 | BouncyCastle's `Strings.toLowerCase`: same length, no ASCII capital left, each capital replaced by its small letter and every other character kept |
| Smime.IsContentHeader | SMOC/src/org/smoc/cryptograhy/Smime.java:97 | the `startsWith("content-")` test on the lower-cased line holds exactly when the line has at least eight characters whose ASCII-lower-cased forms spell "content-" |
| Smime.FilterHeaders | SMOC/src/org/smoc/cryptograhy/Smime.java:88-100 | a line is carried over exactly when it is an original line that is not a content header |
| Smime.FilterHeadersAppend | SMOC/src/org/smoc/cryptograhy/Smime.java:88-100 | the filter works line by line and keeps the original order |
| Smime.FilterHeadersCounts | SMOC/src/org/smoc/cryptograhy/Smime.java:88-100 | each non-content line occurs exactly as often as in the original; content lines never occur |
| Smime.FilterHeadersIdempotent | SMOC/src/org/smoc/cryptograhy/Smime.java:97-98 | filtering twice is filtering once |
| Smime.ContentHeaderExamples | SMOC/src/org/smoc/cryptograhy/Smime.java:97-98 | the test ignores ASCII case and looks only at the start: Content-Type and CONTENT-ID are content headers, X-Content-Foo is not |
| Smime.FilterHeadersExample | SMOC/src/org/smoc/cryptograhy/Smime.java:88-100 | From and X-Content-Foo are kept in order, Content-Type and CONTENT-ID are dropped |
| Smime.Envelope | SMOC/src/org/smoc/cryptograhy/Smime.java:61-106 | a certificate that cannot be encoded fails first, with CertificateEncoding; then an unknown algorithm name fails with InvalidCmsAlgorithm before anything is encrypted; with both, the call succeeds exactly when the library envelopes; a success envelopes the signed content for the given certificate with the named constant and the provider, carrying exactly the non-content lines of the original headers |
| Smime.EnvelopesDifferOnlyInRecipient | SMOC/src/org/smoc/cryptograhy/Smime.java:61-168 | two envelopes of the same signed content, headers and algorithm differ only in the certificate they are keyed to |
| Smime.Smime.EncryptForRecipient | SMOC/src/org/smoc/cryptograhy/Smime.java:61-106 | the returned message is `Envelope` keyed to the recipient key store's certificate, with the sender key store's provider, headers taken from the original message |
| Smime.Smime.EncryptForSender | SMOC/src/org/smoc/cryptograhy/Smime.java:123-168 | the same, keyed to the sender key store's own certificate |
| Smime.Smime.EncryptFor | SMOC/src/org/smoc/cryptograhy/Smime.java:64-105 | the body both methods share returns exactly `Envelope` for the given certificate |
| Smime.CopyNonContentHeaders | SMOC/src/org/smoc/cryptograhy/Smime.java:88-100 | the header loop appends exactly the filtered original lines, in order, and leaves the content alone |
| Signer.PreferredCapabilitiesOrder | SMOC/src/org/smoc/cryptograhy/SmocSigner.java:54-62 | six distinct capabilities, at indices 0 to 5 AES-128, AES-192, AES-256, DES, triple DES, RC2; only RC2 has a key size, 128 |
| Signer.AdvertisedCiphersAreConfigurable | SMOC/src/org/smoc/cryptograhy/SmocSigner.java:54-62 | every advertised cipher except single DES has a CMS constant, and that constant's name selects it in the table |
| Signer.SingleDesNotConfigurable | SMOC/src/org/smoc/cryptograhy/SmocSigner.java:60 | single DES is advertised, but no CMS constant is named "DES_CBC", and that name fails the lookup |
| Signer.SenderGenerator | SMOC/src/org/smoc/cryptograhy/SmocSigner.java:47-99 | the generator meets the sender-generator description |
| Signer.SenderGeneratorUnique | SMOC/src/org/smoc/cryptograhy/SmocSigner.java:47-99 | the description admits exactly one generator: one signer info (algorithm, private key, certificate, provider; encryption key preference with the certificate's issuer and serial, then the capabilities) and a store holding only the certificate |
| Signer.SmocSigner.Create | SMOC/src/org/smoc/cryptograhy/SmocSigner.java:47-99 | fails with OperatorCreation exactly when no signer info can be built; otherwise the generator is the sender's, as above |
| Signer.Signature | SMOC/src/org/smoc/cryptograhy/SmocSigner.java:112-134 | a signed message keeps every header line of the body, unfiltered and in order, and signs its content with the generator and provider |
| Signer.SmocSigner.Sign | SMOC/src/org/smoc/cryptograhy/SmocSigner.java:112-134 | the header loop and the signing return exactly `Signature` with the sender key store's provider |
| SenderKeys.SenderKeyEntry | src/org/smoc/cryptograhy/SenderKeyStore.java:76-118 | key store errors pass through unchanged; in an opened store, a non-key alias fails with NoSuchCertificate(alias, file), a secret-key entry (a key entry without a certificate) fails with NullDereference, a private key entry whose key the pass phrase unlocks is the result, and one it does not unlock fails with UnrecoverableKey(alias); a success is always the alias's private key entry in a store the pass phrase opened |
| Library.OpenKeyStore | src/org/smoc/cryptograhy/SenderKeyStore.java:86-93 | an unknown provider fails with NoSuchProvider, then an unsupported store type with KeyStoreTypeNotFound, then a missing file or a wrong type or password with IOError(file); it succeeds exactly when all of these hold, with the file's image |
| SenderKeys.SenderKeyStore.Load | src/org/smoc/cryptograhy/SenderKeyStore.java:76-118 | fails exactly as `SenderKeyEntry` does; on success it holds that entry's certificate and key, the given provider, and the certificate's public key |
| SenderKeys.SenderKeyStore.constructor | src/org/smoc/cryptograhy/SenderKeyStore.java:30-58 | the getters return the fields fixed at construction |
| RecipientKeys.ReadCertificate | src/org/smoc/cryptograhy/RecipientKeyStore.java:51-80 | a missing file fails with PublicKeyFileNotFound(file); a file holding an object of another kind fails with NotACertificate(file), an empty one (null object) with NullDereference, and one whose block the PEM reader cannot read (an IOException from readObject) with IOError(file); the call succeeds exactly when the file holds a certificate, and returns that certificate |
| RecipientKeys.RecipientKeyStore.Load | src/org/smoc/cryptograhy/RecipientKeyStore.java:51-80 | fails exactly as `ReadCertificate`; on success holds that certificate and its public key |
| RecipientKeys.RecipientKeyStore.constructor | src/org/smoc/cryptograhy/RecipientKeyStore.java:22-41 | a certificate and a public key, read back unchanged; no private key |
| SmtpMail.SmtpMailer.constructor | SMOC/src/org/smoc/mail/SMTPMailer.java:71-89 | no recipient name, port "25", session properties = system properties plus submitter, auth "true", host and port |
| SmtpMail.SmtpMailer.WithRecipientName | SMOC/src/org/smoc/mail/SMTPMailer.java:102-120 | the same, keeping the given recipient name |
| SmtpMail.SmtpMailer.SetPort | SMOC/src/org/smoc/mail/SMTPMailer.java:52-59 | the port field and mail.smtp.port both become the new port; every other property keeps its value |
| SmtpMail.SmtpMailer.SetMailerProperties | SMOC/src/org/smoc/mail/SMTPMailer.java:180-188 | the four session properties agree with the mailer's fields; the port is unchanged |
| SmtpMail.WithMailerProperties | SMOC/src/org/smoc/mail/SMTPMailer.java:180-188 | the four keys get username, "true", host and port; every other property is kept |
| SmtpMail.Quoted | SMOC/src/org/smoc/mail/SMTPMailer.java:136 | the written form is `"`, the name, `"`, `< `, the address, ` >`: every character fixed, length = name + address + 6 |
| SmtpMail.QuotedInjective | SMOC/src/org/smoc/mail/SMTPMailer.java:136-144 | for names without a double quote, the written form determines name and address |
| SmtpMail.SmtpMailer.FromAddress | SMOC/src/org/smoc/mail/SMTPMailer.java:136 | the From string determines the sender's name and address |
| SmtpMail.SmtpMailer.ToAddress | SMOC/src/org/smoc/mail/SMTPMailer.java:139-144 | the bare address without a recipient name; with one, a string that determines name and address |
| SmtpMail.ComposedBody | SMOC/src/org/smoc/mail/SMTPMailer.java:132-163 | a refused From address fails first, then a refused To address; a success is three header lines and the text typed "text/plain; charset=utf-8" |
| SmtpMail.ComposedBodyHasOneOfEach | SMOC/src/org/smoc/mail/SMTPMailer.java:150-157 | the body has exactly one From, one To and one Subject line, with the given values |
| SmtpMail.SmtpMailer.CreateSmtpMessageBody | SMOC/src/org/smoc/mail/SMTPMailer.java:132-163 | the new message is exactly `ComposedBody` of the mailer's From and To strings |
| SmtpMail.SmtpMailer.Send | SMOC/src/org/smoc/mail/SMTPMailer.java:171-175 | passes exactly when the transport delivers under the mailer's session properties; otherwise a messaging failure |
| ImapSync.Archive | branches/dev201209/src/org/smoc/mail/IMAPSynchronizer.java:55-93 | passes exactly when the account exists and holds the folder; an unknown account is a messaging failure; a missing folder in a known account fails with SentItemsFolderNotFound(folder, host, user) |
| ImapSync.ImapSynchronizer.constructor | branches/dev201209/src/org/smoc/mail/IMAPSynchronizer.java:33-45 | the account and folder fields |
| ImapSync.ImapSynchronizer.Synchronize | branches/dev201209/src/org/smoc/mail/IMAPSynchronizer.java:55-93 | the outcome is exactly `Archive` for the synchronizer's account and folder |
| Orchestrator.Smoc.Init | src/org/smoc/Smoc.java:38-60 | both flags false, no settings, no mailer, no synchronizer |
| Orchestrator.Smoc.Configure | src/org/smoc/Smoc.java:68-122 | hasConfiguration iff the file exists; hasValidConfiguration iff the parse succeeds; errors pass through; on success the settings are the parse result, and the mailer and synchronizer are built from them |
| Orchestrator.Smoc.NewMailer | src/org/smoc/Smoc.java:83-101 | the mailer has a recipient name exactly when "recipient.name" is set, and the configured port exactly when "smtp.port" is set (else "25") |
| Orchestrator.Smoc.SetUpTransports | src/org/smoc/Smoc.java:83-105 | the mailer as above and a synchronizer on the imap.* settings; settings and flags unchanged |
| Orchestrator.Smoc.Create | src/org/smoc/Smoc.java:53-123 | a missing file fails with ConfigurationFileNotFound; otherwise succeeds exactly when the parse does, with the parse's error or with the parse result as settings and both flags set; the mailer has a recipient name exactly when "recipient.name" is set and the configured port exactly when "smtp.port" is set (else "25"), with the configured addresses, and the synchronizer has the configured folder |
| Orchestrator.Smoc.ValidateConfiguration | src/org/smoc/Smoc.java:208-226 | no configuration fails first, then an invalid one; otherwise true, and never false |
| Orchestrator.Smoc.SendMissive | src/org/smoc/Smoc.java:153-199 | a failed configuration check ends the call with no stage run; otherwise the result and the stage log are exactly `Missive` of the object's context |
| Orchestrator.Smoc.SignAndDeliver | src/org/smoc/Smoc.java:175-195 | compose, signer set-up, signing and delivery return exactly `Signing` |
| Orchestrator.Smoc.Deliver | src/org/smoc/Smoc.java:184-195 | both envelopes, the send and the append return exactly `Delivery` |
| Orchestrator.Missive | src/org/smoc/Smoc.java:153-199 | a missing file fails with IOError(file) and no stage completed; otherwise the first event is the file's text; at most ten stages complete, never a false result, and true exactly when all ten completed |
| Orchestrator.RecipientLoading | src/org/smoc/Smoc.java:171-195 | extends the given log by at most the eight remaining stages, never false, true exactly when all eight complete |
| Orchestrator.Signing | src/org/smoc/Smoc.java:174-195 | extends the log by at most seven stages, never false, true exactly when all seven complete |
| Orchestrator.Delivery | src/org/smoc/Smoc.java:183-195 | extends the log by at most four stages, never false, true exactly when all four complete; what is sent is the recipient envelope just made |
| Orchestrator.Archiving | src/org/smoc/Smoc.java:189-192 | extends the log by at most two stages, never false, true exactly when both complete |
| Orchestrator.Synchronizing | src/org/smoc/Smoc.java:190-192 | true exactly when the append passes, then with one Synchronized event added; otherwise the log is unchanged; never false |
| Orchestrator.FollowsStageOrderByStage | src/org/smoc/Smoc.java:164-192 | a log follows the stage order exactly when its i-th event comes from the i-th stage |
| Orchestrator.StagesMatchAt | src/org/smoc/Smoc.java:164-192 | in a matched log every stage produced what it computes from the earlier ones |
| Orchestrator.MissiveAfterLoading | src/org/smoc/Smoc.java:164-175 | once the file is read and both key stores are loaded, the run continues as `Signing` |
| Orchestrator.MissiveFollowsTheStages | src/org/smoc/Smoc.java:153-199 | every run completes the stages in order, each matching its inputs; it returns true exactly when all ten completed, never false, and otherwise fails with the error of the first stage that did not complete |
| Orchestrator.RecipientLoadingFollowsTheStages | src/org/smoc/Smoc.java:172-195 | the same from the recipient key stage on |
| Orchestrator.SigningFollowsTheStages | src/org/smoc/Smoc.java:175-195 | the same from the compose stage on |
| Orchestrator.DeliveryFollowsTheStages | src/org/smoc/Smoc.java:184-195 | the same from the recipient envelope on |
| Orchestrator.ArchivingFollowsTheStages | src/org/smoc/Smoc.java:190-195 | the same from the sender envelope on: a failure after the send is still a failure of the call |
| Orchestrator.SynchronizingFollowsTheStages | src/org/smoc/Smoc.java:191-195 | the same for the final append |
| Orchestrator.SentOnlyOnce | src/org/smoc/Smoc.java:187-188 | a run sends at most once, at the eighth stage, so never before signing and the recipient envelope |
| Orchestrator.SentMessageIsSignedThenEnveloped | src/org/smoc/Smoc.java:175-188 | the message sent is the recipient's envelope, under the configured algorithm, of the composed body signed with the sender's generator |
| Orchestrator.EnvelopesShareTheSignedMessage | src/org/smoc/Smoc.java:184-192 | both envelopes wrap the same signed message with the same headers and algorithm; they differ only in the certificate (recipient's, sender's) |
| Orchestrator.EnvelopeHeadersComeFromTheBody | src/org/smoc/Smoc.java:175-192 | the signed message keeps the body's lines, and the envelope carries the body's non-content lines |
| Orchestrator.SentAndArchivedMessages | src/org/smoc/Smoc.java:164-195 | in a complete run the body is the file's text, the recipient's envelope is sent, and the sender's envelope is appended to the configured folder |

## Left out

- Cryptography is abstract. The model has no signing, no CMS enveloping (key transport, random
  content keys) and no certificate parsing or encoding (`encodesCertificate` says whether a
  certificate can be encoded for key transport): signatures and envelopes are free terms recording
  their inputs, so no round-trip or tamper-evidence claim is made. MIME serialisation,
  `saveChanges` and content-header regeneration are not modelled either.
- `InternetAddress` parsing is the environment predicate `acceptsAddress`. The From and To
  lines are kept as the strings the mailer builds.
- Process-global state is not modelled: `Smoc.setCommandMap`, `Security.addProvider`, and the
  JVM-wide `System.getProperties()` object that the mailer and the synchronizer share. The
  mailer starts from a copy of the system properties and owns its map. The synchronizer's
  store-protocol system property is not modelled.
- The `smoc.properties` definition resource and the `Properties` file format are inputs, not
  I/O. `Configuration.ConfigDefinition` carries the required and optional lists. A loaded file
  is a sequence of distinct-key entries in its key-set iteration order, and that order is
  arbitrary.
- Configuration.ConfigReader.Parse: the optional list is shrunk as in the code, but nothing
  reads it afterwards, so no contract speaks of it.
- SmocFileUtils is not part of this model. The missive text is a lookup in the environment's
  text files, and a missing file is an I/O error.
- SmocAuthenticator and the SmocTest command line are not part of this model.
- The Transport and Store sessions are reduced to environment predicates: `smtpDelivers` for
  SMTP, and an account table for IMAP. Connection, login and message appending are not
  modelled.
- Orchestrator.Smoc.Create: requires that the definition lists every setting the constructor
  and `sendMissive` read. In Java, a setting missing there would reach a constructor as null.
  Under `Valid()` every key `sendMissive` reads is present, so the empty string `Lookup` gives
  for an absent key never arises.
- The `ClassCastException` of a PEM file that does not hold a certificate becomes the
  `NotACertificate` error. The `NullPointerException`s of a PEM file with no object and of a
  secret-key alias (which has no certificate) become the `NullDereference` error. The
  `IOException` that `readObject` throws for a PEM block of an unknown type or a certificate
  that does not parse becomes `IOError` naming the file; why the block is unreadable is not
  modelled. Errors of `JcaCertStore` construction are not modelled.
- SenderKeys.SenderKeyStore.Load: on failure no object is returned, so the Java behaviour of
  setting the provider field before the key store is read is not observable.
- Orchestrator.Smoc.SendMissive: the stage log is a ghost record. `Missive` is its
  specification, and the Java method has no such list.

Note: the closing `return false` of `validateConfiguration` and of `sendMissive` is
unreachable. `Orchestrator.Smoc.ValidateConfiguration` states this as `r != Success(false)`.

=== FILE: configuration.dfy ===
/**
 * ConfigReader: checks that the configuration file exists, then validates its entries
 * against the lists of required and optional property names.
 */
module Configuration {
  import opened Wrappers
  import opened Errors
  import opened Library

  /** The required and optional property names, as read from the smoc.properties resource. */
  datatype ConfigDefinition = ConfigDefinition(required: seq<string>, optional: seq<string>)

  // ---------------------------------------------------------------------------------------
  // The specification of parse
  // ---------------------------------------------------------------------------------------

  /** ArrayList.remove(Object): drops the first occurrence of `x`, if there is one. */
  function RemoveFirst(xs: seq<string>, x: string): (r: seq<string>)
    ensures x in xs ==> |r| == |xs| - 1
    ensures x !in xs ==> r == xs
  {
    if xs == [] then []
    else if xs[0] == x then xs[1..]
    else [xs[0]] + RemoveFirst(xs[1..], x)
  }

  /** RemoveFirst cuts out exactly the first occurrence: what precedes it and what follows it stay, in order. */
  lemma {:induction false} RemoveFirstCutsFirst(xs: seq<string>, x: string, i: nat)
    requires i < |xs| && xs[i] == x && x !in xs[..i]
    ensures RemoveFirst(xs, x) == xs[..i] + xs[i + 1..]
  {
    if i > 0 {
      assert xs[1..][..i - 1] == xs[1..i];
      assert x !in xs[1..][..i - 1];
      RemoveFirstCutsFirst(xs[1..], x, i - 1);
      assert xs[..i] == [xs[0]] + xs[1..i];
    }
  }

  /** As a multiset, RemoveFirst takes away one `x` when there is one. */
  lemma {:induction false} RemoveFirstCounts(xs: seq<string>, x: string)
    ensures multiset(RemoveFirst(xs, x)) == multiset(xs) - multiset{x}
  {
    if xs != [] {
      assert xs == [xs[0]] + xs[1..];
      if xs[0] != x {
        RemoveFirstCounts(xs[1..], x);
        var rest := RemoveFirst(xs[1..], x);
        assert multiset([xs[0]] + rest) == multiset{xs[0]} + multiset(rest);
      }
    }
  }

  /** The entries with a non-empty value, as a map; a later entry for a key wins. */
  function NonEmptyEntries(entries: seq<(string, string)>): map<string, string>
    decreases |entries|
  {
    if entries == [] then map[]
    else
      var kept := NonEmptyEntries(entries[..|entries| - 1]);
      var last := entries[|entries| - 1];
      if last.1 != "" then kept[last.0 := last.1] else kept
  }

  /** The keys that have a non-empty value, counted once per entry. */
  function NonEmptyKeys(entries: seq<(string, string)>): multiset<string>
    decreases |entries|
  {
    if entries == [] then multiset{}
    else
      var kept := NonEmptyKeys(entries[..|entries| - 1]);
      var last := entries[|entries| - 1];
      if last.1 != "" then kept + multiset{last.0} else kept
  }

  /** The required names still listed after each non-empty entry has struck out one occurrence of its key. */
  function Remaining(required: seq<string>, entries: seq<(string, string)>): seq<string>
    decreases |entries|
  {
    if entries == [] then required
    else
      var left := Remaining(required, entries[..|entries| - 1]);
      var last := entries[|entries| - 1];
      if last.1 != "" then RemoveFirst(left, last.0) else left
  }

  /** The key of the first entry whose value is empty although its key is required. */
  function FirstEmptyRequired(entries: seq<(string, string)>, required: seq<string>): Option<string>
    decreases |entries|
  {
    if entries == [] then None
    else
      var earlier := FirstEmptyRequired(entries[..|entries| - 1], required);
      var last := entries[|entries| - 1];
      if earlier.Some? then earlier
      else if last.1 == "" && last.0 in required then Some(last.0)
      else None
  }

  /**
   * What parse returns for a loaded table: an empty table is invalid; a required key with an
   * empty value fails, naming the first such key; required names never given a value fail,
   * listed; otherwise the map of non-empty entries.
   */
  function Validate(entries: PropertiesTable, required: seq<string>): (r: Result<map<string, string>, SmocError>)
    ensures entries == [] ==> r == Failure(InvalidConfiguration)
    ensures r.Success? ==> entries != [] && forall k :: k in r.value ==> r.value[k] != ""
  {
    NonEmptyEntriesValues(entries);
    if entries == [] then Failure(InvalidConfiguration)
    else
      match FirstEmptyRequired(entries, required)
      case Some(key) => Failure(InvalidPropertyValue(key, ""))
      case None =>
        var left := Remaining(required, entries);
        if left != [] then Failure(UndefinedProperties(left)) else Success(NonEmptyEntries(entries))
  }

  // ---------------------------------------------------------------------------------------
  // What the specification functions mean
  // ---------------------------------------------------------------------------------------

  /** Every value in the map is non-empty and comes from an entry of the table. */
  lemma {:induction false} NonEmptyEntriesValues(entries: seq<(string, string)>)
    ensures forall k :: k in NonEmptyEntries(entries) ==>
      NonEmptyEntries(entries)[k] != "" && (k, NonEmptyEntries(entries)[k]) in entries
    decreases |entries|
  {
    if entries != [] {
      var front := entries[..|entries| - 1];
      NonEmptyEntriesValues(front);
      assert forall p :: p in front ==> p in entries;
    }
  }

  /** In a table with distinct keys, every entry with a non-empty value is in the map unchanged. */
  lemma {:induction false} NonEmptyEntriesKeep(entries: seq<(string, string)>, i: nat)
    requires DistinctKeys(entries)
    requires i < |entries| && entries[i].1 != ""
    ensures entries[i].0 in NonEmptyEntries(entries) && NonEmptyEntries(entries)[entries[i].0] == entries[i].1
    decreases |entries|
  {
    var front := entries[..|entries| - 1];
    if i < |entries| - 1 {
      assert DistinctKeys(front);
      assert front[i] == entries[i];
      NonEmptyEntriesKeep(front, i);
    }
  }

  /** A key counts as given a value exactly when it is in the map of non-empty entries. */
  lemma {:induction false} NonEmptyKeysAreMapKeys(entries: seq<(string, string)>, key: string)
    ensures NonEmptyKeys(entries)[key] > 0 <==> key in NonEmptyEntries(entries)
    decreases |entries|
  {
    if entries != [] {
      NonEmptyKeysAreMapKeys(entries[..|entries| - 1], key);
    }
  }

  /** A key that no entry before `i` has is not among their non-empty keys. */
  lemma {:induction false} NonEmptyKeysAbsent(entries: seq<(string, string)>, key: string)
    requires forall p :: p in entries ==> p.0 != key
    ensures NonEmptyKeys(entries)[key] == 0
    decreases |entries|
  {
    if entries != [] {
      var front := entries[..|entries| - 1];
      assert forall p :: p in front ==> p in entries;
      NonEmptyKeysAbsent(front, key);
    }
  }

  /** In a table with distinct keys, a key has a non-empty value at most once. */
  lemma {:induction false} NonEmptyKeysAtMostOnce(entries: seq<(string, string)>, key: string)
    requires DistinctKeys(entries)
    ensures NonEmptyKeys(entries)[key] <= 1
    decreases |entries|
  {
    if entries != [] {
      var front := entries[..|entries| - 1];
      var last := entries[|entries| - 1];
      assert DistinctKeys(front);
      NonEmptyKeysAtMostOnce(front, key);
      if last.0 == key {
        assert forall p :: p in front ==> p.0 != key by {
          forall p | p in front ensures p.0 != key {
            var j :| 0 <= j < |front| && front[j] == p;
            assert entries[j] == p;
          }
        }
        NonEmptyKeysAbsent(front, key);
      }
    }
  }

  /** Striking out keys one entry at a time removes, as a multiset, exactly the non-empty keys. */
  lemma {:induction false} RemainingCounts(required: seq<string>, entries: seq<(string, string)>)
    ensures multiset(Remaining(required, entries)) == multiset(required) - NonEmptyKeys(entries)
    decreases |entries|
  {
    if entries != [] {
      var front := entries[..|entries| - 1];
      var last := entries[|entries| - 1];
      RemainingCounts(required, front);
      if last.1 != "" {
        RemoveFirstCounts(Remaining(required, front), last.0);
        SubtractInTurn(multiset(required), NonEmptyKeys(front), multiset{last.0});
      }
    }
  }

  /** Taking away two multisets in turn is taking away their sum. */
  lemma SubtractInTurn<T>(m: multiset<T>, a: multiset<T>, b: multiset<T>)
    ensures (m - a) - b == m - (a + b)
  {
    assert forall x :: ((m - a) - b)[x] == (m - (a + b))[x];
  }

  /** A name is still listed exactly when it is listed more often than it was given a value. */
  lemma RemainingMembership(required: seq<string>, entries: seq<(string, string)>, name: string)
    ensures name in Remaining(required, entries) <==> multiset(required)[name] > NonEmptyKeys(entries)[name]
  {
    RemainingCounts(required, entries);
    assert name in Remaining(required, entries) <==> name in multiset(Remaining(required, entries));
  }

  /** An empty required entry is first when none before it is. */
  lemma {:induction false} FirstEmptyRequiredPrefix(entries: seq<(string, string)>, n: nat, required: seq<string>)
    requires n <= |entries|
    requires FirstEmptyRequired(entries[..n], required).Some?
    ensures FirstEmptyRequired(entries, required) == FirstEmptyRequired(entries[..n], required)
    decreases |entries| - n
  {
    if n < |entries| {
      assert entries[..|entries| - 1][..n] == entries[..n];
      FirstEmptyRequiredPrefix(entries[..|entries| - 1], n, required);
    } else {
      assert entries[..n] == entries;
    }
  }

  /** FirstEmptyRequired names the first entry of the table with an empty value and a required key. */
  lemma {:induction false} FirstEmptyRequiredIsFirst(entries: seq<(string, string)>, required: seq<string>)
    ensures FirstEmptyRequired(entries, required).None? <==>
      forall i :: 0 <= i < |entries| ==> !(entries[i].1 == "" && entries[i].0 in required)
    ensures FirstEmptyRequired(entries, required).Some? ==>
      exists i :: 0 <= i < |entries| && entries[i] == (FirstEmptyRequired(entries, required).value, "")
        && entries[i].0 in required
        && forall j :: 0 <= j < i ==> !(entries[j].1 == "" && entries[j].0 in required)
    decreases |entries|
  {
    if entries != [] {
      var front := entries[..|entries| - 1];
      FirstEmptyRequiredIsFirst(front, required);
      assert forall i :: 0 <= i < |front| ==> front[i] == entries[i];
    }
  }

  // ---------------------------------------------------------------------------------------
  // The properties of parse
  // ---------------------------------------------------------------------------------------

  /**
   * A successful parse keeps every entry with a non-empty value, unchanged, whether it is
   * required, optional or neither, and nothing else.
   */
  lemma ValidateKeepsNonEmptyEntries(entries: PropertiesTable, required: seq<string>)
    requires Validate(entries, required).Success?
    ensures forall i :: 0 <= i < |entries| && entries[i].1 != "" ==>
      entries[i].0 in Validate(entries, required).value && Validate(entries, required).value[entries[i].0] == entries[i].1
    ensures forall k :: k in Validate(entries, required).value ==>
      (k, Validate(entries, required).value[k]) in entries && Validate(entries, required).value[k] != ""
  {
    forall i | 0 <= i < |entries| && entries[i].1 != ""
      ensures entries[i].0 in NonEmptyEntries(entries) && NonEmptyEntries(entries)[entries[i].0] == entries[i].1
    {
      NonEmptyEntriesKeep(entries, i);
    }
    NonEmptyEntriesValues(entries);
  }

  /** After a successful parse every required name has a non-empty value. */
  lemma ValidateCoversRequired(entries: PropertiesTable, required: seq<string>)
    requires Validate(entries, required).Success?
    ensures forall name :: name in required ==>
      name in Validate(entries, required).value && Validate(entries, required).value[name] != ""
  {
    forall name | name in required
      ensures name in NonEmptyEntries(entries)
    {
      RemainingMembership(required, entries, name);
      NonEmptyKeysAreMapKeys(entries, name);
    }
  }

  /**
   * A required key with an empty value fails the parse, naming the first such entry of the
   * table, whatever else the table holds.
   */
  lemma ValidateRejectsEmptyRequired(entries: PropertiesTable, required: seq<string>, i: nat)
    requires i < |entries| && entries[i].1 == "" && entries[i].0 in required
    ensures Validate(entries, required).Failure?
    ensures Validate(entries, required).error.InvalidPropertyValue?
    ensures
      var e := Validate(entries, required).error;
      exists j :: 0 <= j <= i && entries[j] == (e.property, e.value) && e.value == "" && e.property in required
  {
    FirstEmptyRequiredIsFirst(entries, required);
    var key := FirstEmptyRequired(entries, required).value;
    var j :| 0 <= j < |entries| && entries[j] == (key, "") && entries[j].0 in required
      && forall j' :: 0 <= j' < j ==> !(entries[j'].1 == "" && entries[j'].0 in required);
    assert j <= i;
  }

  /**
   * With no empty required value, a required name that no entry gives a value fails the
   * parse, and the failure lists exactly the required names left over: each as many times
   * as it is required beyond the entries that give it a value.
   */
  lemma ValidateRejectsUndefined(entries: PropertiesTable, required: seq<string>, name: string)
    requires entries != []
    requires forall i :: 0 <= i < |entries| ==> !(entries[i].1 == "" && entries[i].0 in required)
    requires name in required && name !in NonEmptyEntries(entries)
    ensures Validate(entries, required).Failure?
    ensures Validate(entries, required).error.UndefinedProperties?
    ensures name in Validate(entries, required).error.properties
    ensures forall x :: x in Validate(entries, required).error.properties ==> x in required
    ensures multiset(Validate(entries, required).error.properties) == multiset(required) - NonEmptyKeys(entries)
  {
    FirstEmptyRequiredIsFirst(entries, required);
    NonEmptyKeysAreMapKeys(entries, name);
    RemainingMembership(required, entries, name);
    RemainingCounts(required, entries);
    forall x | x in Remaining(required, entries) ensures x in required {
      RemainingMembership(required, entries, x);
    }
  }

  /**
   * A name listed twice as required can never be satisfied: each key occurs once in the
   * table, so it strikes out only one of the two occurrences.
   */
  lemma ValidateRejectsDuplicateRequired(entries: PropertiesTable, required: seq<string>, name: string)
    requires multiset(required)[name] >= 2
    ensures Validate(entries, required).Failure?
  {
    NonEmptyKeysAtMostOnce(entries, name);
    RemainingMembership(required, entries, name);
  }

  /** The table with one more entry `entry` spliced in after `front`. */
  lemma Splice(front: seq<(string, string)>, entry: (string, string), back: seq<(string, string)>)
    requires back != []
    ensures (front + [entry] + back)[..|front| + |back|] == front + [entry] + back[..|back| - 1]
    ensures (front + [entry] + back)[|front| + |back|] == back[|back| - 1]
    ensures (front + back)[..|front| + |back| - 1] == front + back[..|back| - 1]
    ensures (front + back)[|front| + |back| - 1] == back[|back| - 1]
  {
  }

  /** An entry with an empty value does not change the map of non-empty entries. */
  lemma {:induction false} EmptyEntryKeepsMap(front: seq<(string, string)>, entry: (string, string), back: seq<(string, string)>)
    requires entry.1 == ""
    ensures NonEmptyEntries(front + [entry] + back) == NonEmptyEntries(front + back)
    decreases |back|
  {
    if back == [] {
      assert (front + [entry] + back)[..|front|] == front;
      assert front + back == front;
    } else {
      Splice(front, entry, back);
      EmptyEntryKeepsMap(front, entry, back[..|back| - 1]);
    }
  }

  /** An entry with an empty value strikes out no required name. */
  lemma {:induction false} EmptyEntryKeepsRemaining(front: seq<(string, string)>, entry: (string, string), back: seq<(string, string)>,
                                                    required: seq<string>)
    requires entry.1 == ""
    ensures Remaining(required, front + [entry] + back) == Remaining(required, front + back)
    decreases |back|
  {
    if back == [] {
      assert (front + [entry] + back)[..|front|] == front;
      assert front + back == front;
    } else {
      Splice(front, entry, back);
      EmptyEntryKeepsRemaining(front, entry, back[..|back| - 1], required);
      RemainingSameLast(required, front + [entry] + back, front + back);
    }
  }

  /** Two tables with the same last entry, and the same names left before it, leave the same names. */
  lemma RemainingSameLast(required: seq<string>, s: seq<(string, string)>, t: seq<(string, string)>)
    requires s != [] && t != [] && s[|s| - 1] == t[|t| - 1]
    requires Remaining(required, s[..|s| - 1]) == Remaining(required, t[..|t| - 1])
    ensures Remaining(required, s) == Remaining(required, t)
  {
  }

  /** An entry with an empty value and a key that is not required is never the first empty required one. */
  lemma {:induction false} OptionalEntryIgnored(front: seq<(string, string)>, entry: (string, string), back: seq<(string, string)>,
                                                required: seq<string>)
    requires entry.1 == "" && entry.0 !in required
    ensures FirstEmptyRequired(front + [entry] + back, required) == FirstEmptyRequired(front + back, required)
    decreases |back|
  {
    if back == [] {
      assert (front + [entry] + back)[..|front|] == front;
      assert front + back == front;
    } else {
      Splice(front, entry, back);
      OptionalEntryIgnored(front, entry, back[..|back| - 1], required);
    }
  }

  /**
   * An optional key with an empty value is ignored: the parse of the table without that entry
   * gives the same result, as long as something is left.
   */
  lemma ValidateIgnoresEmptyOptional(entries: PropertiesTable, required: seq<string>, i: nat)
    requires i < |entries| && entries[i].1 == "" && entries[i].0 !in required
    requires |entries| > 1
    ensures DistinctKeys(entries[..i] + entries[i + 1..])
    ensures Validate(entries, required) == Validate(entries[..i] + entries[i + 1..], required)
  {
    var rest := entries[..i] + entries[i + 1..];
    assert entries == entries[..i] + [entries[i]] + entries[i + 1..];
    forall a, b | 0 <= a < b < |rest| ensures rest[a].0 != rest[b].0 {
      var a' := if a < i then a else a + 1;
      var b' := if b < i then b else b + 1;
      assert rest[a] == entries[a'] && rest[b] == entries[b'];
    }
    EmptyEntryKeepsMap(entries[..i], entries[i], entries[i + 1..]);
    EmptyEntryKeepsRemaining(entries[..i], entries[i], entries[i + 1..], required);
    OptionalEntryIgnored(entries[..i], entries[i], entries[i + 1..], required);
  }

  // ---------------------------------------------------------------------------------------
  // The reader
  // ---------------------------------------------------------------------------------------

  /** A reader bound to a configuration file that existed when it was created. */
  class ConfigReader {
    const configFile: string

    constructor (configFile: string)
      ensures this.configFile == configFile
    {
      this.configFile := configFile;
    }

    /** The Java constructor: a missing file fails, carrying its name. */
    static method Open(env: Environment, configFilename: string) returns (r: Result<ConfigReader, SmocError>)
      ensures configFilename !in env.configFiles <==> r == Failure(ConfigurationFileNotFound(Some(configFilename)))
      ensures r.Success? <==> configFilename in env.configFiles
      ensures r.Success? ==> fresh(r.value) && r.value.configFile == configFilename
    {
      if configFilename !in env.configFiles {
        return Failure(ConfigurationFileNotFound(Some(configFilename)));
      }
      var reader := new ConfigReader(configFilename);
      r := Success(reader);
    }

    /**
     * parse: load the table, then walk its entries once, collecting the non-empty ones and
     * striking their keys out of the required list; a required key with an empty value stops
     * the walk. A file that can no longer be read fails with an I/O error.
     */
    method Parse(env: Environment, definition: ConfigDefinition) returns (r: Result<map<string, string>, SmocError>)
      ensures configFile !in env.configFiles ==> r == Failure(IOError(configFile))
      ensures configFile in env.configFiles ==> r == Validate(env.configFiles[configFile], definition.required)
    {
      var kvps: map<string, string> := map[];
      var requiredProperties := definition.required;
      var optionalProperties := definition.optional;
      if configFile !in env.configFiles {
        return Failure(IOError(configFile));
      }
      var configProperties := env.configFiles[configFile];
      if configProperties == [] {
        return Failure(InvalidConfiguration);
      }
      var i := 0;
      while i < |configProperties|
        invariant 0 <= i <= |configProperties|
        invariant kvps == NonEmptyEntries(configProperties[..i])
        invariant requiredProperties == Remaining(definition.required, configProperties[..i])
        invariant FirstEmptyRequired(configProperties[..i], definition.required) == None
      {
        var (currentKey, value) := configProperties[i];
        NextEntry(configProperties, i, definition.required);
        if |value| > 0 {
          kvps := kvps[currentKey := value];
          if currentKey in requiredProperties {
            requiredProperties := RemoveFirst(requiredProperties, currentKey);
          }
        } else {
          StillRequired(configProperties, i, definition.required);
          if currentKey in requiredProperties {
            FirstEmptyRequiredPrefix(configProperties, i + 1, definition.required);
            return Failure(InvalidPropertyValue(currentKey, value));
          } else if currentKey in optionalProperties {
            optionalProperties := RemoveFirst(optionalProperties, currentKey);
          }
        }
        i := i + 1;
      }
      assert configProperties[..i] == configProperties;
      if requiredProperties != [] {
        return Failure(UndefinedProperties(requiredProperties));
      }
      return Success(kvps);
    }
  }

  /** How each fold takes in the entry at `i`. */
  lemma NextEntry(entries: seq<(string, string)>, i: nat, required: seq<string>)
    requires i < |entries|
    ensures
      var (key, value) := entries[i];
      && NonEmptyEntries(entries[..i + 1])
           == (if value != "" then NonEmptyEntries(entries[..i])[key := value] else NonEmptyEntries(entries[..i]))
      && Remaining(required, entries[..i + 1])
           == (if value != "" then RemoveFirst(Remaining(required, entries[..i]), key) else Remaining(required, entries[..i]))
      && (FirstEmptyRequired(entries[..i], required).None? ==>
            FirstEmptyRequired(entries[..i + 1], required) == (if value == "" && key in required then Some(key) else None))
  {
    assert entries[..i + 1][..i] == entries[..i];
  }

  /** Before the entry at `i` is read, its key is still required exactly when it was listed as required. */
  lemma StillRequired(entries: PropertiesTable, i: nat, required: seq<string>)
    requires i < |entries|
    ensures entries[i].0 in Remaining(required, entries[..i]) <==> entries[i].0 in required
  {
    var key := entries[i].0;
    forall p | p in entries[..i] ensures p.0 != key {
      var j :| 0 <= j < i && entries[..i][j] == p;
      assert entries[j] == p;
    }
    NonEmptyKeysAbsent(entries[..i], key);
    RemainingMembership(required, entries[..i], key);
  }
}

=== FILE: errors.dfy ===
/**
 * The exceptions that SMOC raises or lets through, as data. Each variant carries the
 * context fields its Java exception puts into its message.
 */
module Errors {
  import opened Wrappers

  datatype SmocError =
      /** ConfigurationFileNotFoundException, with or without the file name. */
    | ConfigurationFileNotFound(configFilename: Option<string>)
      /** InvalidConfigurationException(): the file is empty or the configuration is not valid. */
    | InvalidConfiguration
      /** InvalidConfigurationException(property): the required names that were never defined. */
    | UndefinedProperties(properties: seq<string>)
      /** InvalidConfigurationException(property, value): a required property with an empty value. */
    | InvalidPropertyValue(property: string, value: string)
      /** NoSuchCertificateException(alias, key store file). */
    | NoSuchCertificate(alias: string, keyStoreFilename: string)
      /** PublicKeyFileNotFoundException(file). */
    | PublicKeyFileNotFound(filename: string)
      /** The PEM file holds something other than an X.509 certificate (a failed cast in Java). */
    | NotACertificate(filename: string)
      /** SentItemsFolderNotFoundException(folder, host, user name). */
    | SentItemsFolderNotFound(folder: string, host: string, username: string)
      /** InvalidCMSAlgorithmException(name). */
    | InvalidCmsAlgorithm(name: string)
      /** An IOException while opening or loading a file (missing file, wrong key store password). */
    | IOError(filename: string)
      /** NoSuchProviderException: the security provider is not installed. */
    | NoSuchProvider(provider: string)
      /** KeyStoreException: the provider has no key store of that type. */
    | KeyStoreTypeNotFound(keyStoreType: string)
      /** UnrecoverableKeyException: the pass phrase does not unlock the private key. */
    | UnrecoverableKey(alias: string)
      /** AddressException: JavaMail rejects an address string. */
    | InvalidAddress(address: string)
      /** OperatorCreationException: no signer can be built for the signature algorithm. */
    | OperatorCreation(signAlgorithm: string)
      /** SMIMEException while generating the signature. */
    | SigningFailure
      /** NullPointerException: a getter returned null and the code called a method on the result. */
    | NullDereference
      /** CertificateEncodingException: the certificate cannot be encoded into a key-transport recipient. */
    | CertificateEncoding
      /** CMSException or SMIMEException while generating an envelope. */
    | EnvelopeFailure
      /** MessagingException from the mail transport or the mail store. */
    | MessagingFailure
}

=== FILE: imap_sync.dfy ===
/**
 * IMAPSynchronizer: appends the sender's copy of a sent message to the "Sent items" folder
 * of the sender's mail store account. The mail store is part of the environment.
 */
module ImapSync {
  import opened Wrappers
  import opened Errors
  import opened Library

  /**
   * What synchronize does for an account and a folder: an unknown account or a refused
   * login is a messaging failure, a missing folder fails naming folder, host and user, and
   * otherwise the one message is appended.
   */
  function Archive(env: Environment, protocol: string, host: string, username: string, password: string, folder: string)
    : (o: Outcome<SmocError>)
    ensures o.Pass? <==>
      (protocol, host, username, password) in env.network.imapAccounts
      && folder in env.network.imapAccounts[(protocol, host, username, password)]
    ensures (protocol, host, username, password) !in env.network.imapAccounts ==> o == Fail(MessagingFailure)
    ensures (protocol, host, username, password) in env.network.imapAccounts
      && folder !in env.network.imapAccounts[(protocol, host, username, password)]
      ==> o == Fail(SentItemsFolderNotFound(folder, host, username))
  {
    var account := (protocol, host, username, password);
    if account !in env.network.imapAccounts then Fail(MessagingFailure)
    else if folder in env.network.imapAccounts[account] then Pass
    else Fail(SentItemsFolderNotFound(folder, host, username))
  }

  /** The mail store account and folder; the fields are fixed by the constructor. */
  class ImapSynchronizer {
    const host: string
    const username: string
    const password: string
    const protocol: string
    const folder: string

    constructor (host: string, username: string, password: string, protocol: string, folder: string)
      ensures this.host == host && this.username == username && this.password == password
      ensures this.protocol == protocol && this.folder == folder
    {
      this.host := host;
      this.username := username;
      this.password := password;
      this.protocol := protocol;
      this.folder := folder;
    }

    /** synchronize: connect, look the folder up, append the message or fail. */
    method Synchronize(env: Environment, message: MimeMessage) returns (o: Outcome<SmocError>)
      ensures o == Archive(env, protocol, host, username, password, folder)
    {
      var account := (protocol, host, username, password);
      if account !in env.network.imapAccounts {
        return Fail(MessagingFailure);
      }
      var sentItemsFolderExists := folder in env.network.imapAccounts[account];
      if sentItemsFolderExists {
        o := Pass;
      } else {
        o := Fail(SentItemsFolderNotFound(folder, host, username));
      }
    }
  }
}

=== FILE: library.dfy ===
/**
 * The foreign world SMOC calls into: certificates and keys, the CMS algorithm constants,
 * MIME messages, key stores and PEM files, and what the libraries and servers accept.
 * Cryptographic results are free terms (a signature is SignedMultipart(...), an envelope is
 * Enveloped(...)): the model says which inputs each term is built from and nothing more.
 */
module Library {
  import opened Wrappers
  import opened Errors

  /** Abstract keys: only their identity matters. */
  datatype PublicKey = PublicKey(id: nat)
  datatype PrivateKey = PrivateKey(id: nat)

  /** An X.509 certificate, reduced to the fields SMOC reads. */
  datatype Certificate = Certificate(issuer: string, serialNumber: nat, publicKey: PublicKey)

  /** The 31 BouncyCastle CMSAlgorithm constants that SMOC can name (ciphers, key wraps, EC KDFs, digests). */
  datatype CmsAlgorithm =
    | AES128_CBC | AES128_WRAP | AES192_CBC | AES192_WRAP | AES256_CBC | AES256_WRAP
    | CAMELLIA128_CBC | CAMELLIA128_WRAP | CAMELLIA192_CBC | CAMELLIA192_WRAP
    | CAMELLIA256_CBC | CAMELLIA256_WRAP
    | CAST5_CBC | DES_EDE3_CBC | DES_EDE3_WRAP | ECDH_SHA1KDF | ECMQV_SHA1KDF | GOST3411
    | IDEA_CBC | MD5 | RC2_CBC | RIPEMD128 | RIPEMD160 | RIPEMD256 | SEED_CBC | SEED_WRAP
    | SHA1 | SHA224 | SHA256 | SHA384 | SHA512

  /** The SMIMECapability identifiers SMOC advertises. */
  datatype SmimeCapabilityId = Aes128Cbc | Aes192Cbc | Aes256Cbc | DesCbc | DesEde3Cbc | Rc2Cbc

  /** One entry of an SMIMECapabilities attribute (section 2.5.2 of RFC 5751). */
  datatype SmimeCapability = SmimeCapability(id: SmimeCapabilityId, keySize: Option<nat>)

  datatype IssuerAndSerialNumber = IssuerAndSerialNumber(issuer: string, serialNumber: nat)

  /** Signed attributes: SMIMEEncryptionKeyPreference (section 2.5.3 of RFC 5751) and SMIMECapabilities. */
  datatype Attribute =
    | EncryptionKeyPreference(issuerAndSerial: IssuerAndSerialNumber)
    | SmimeCapabilities(capabilities: seq<SmimeCapability>)

  /** What a signer-info generator is built from. */
  datatype SignerInfo = SignerInfo(
    signAlgorithm: string,
    privateKey: PrivateKey,
    certificate: Certificate,
    provider: string,
    signedAttributes: seq<Attribute>)

  /** An SMIMESignedGenerator after its signer infos and certificate store are added. */
  datatype SignedGenerator = SignedGenerator(signerInfos: seq<SignerInfo>, certificates: seq<Certificate>)

  /** The content of a MIME message or body part. */
  datatype Content =
    | NoContent
    | Text(text: string, mimeType: string)
      /** SMIMESignedGenerator.generate(part, provider): a multipart/signed over `signedPart`. */
    | SignedMultipart(signedPart: Content, generator: SignedGenerator, provider: string)
      /** SMIMEEnvelopedGenerator.generate: `encryptedPart` under a content key for one recipient. */
    | Enveloped(encryptedPart: Content, recipient: Certificate, algorithm: CmsAlgorithm, provider: string)

  /** The observable state of a MimeMessage: its header lines, in order, and its content. */
  datatype Snapshot = Snapshot(headers: seq<string>, content: Content)

  /** A JavaMail MimeMessage: header lines in order, plus a content. */
  class MimeMessage {
    var headers: seq<string>
    var content: Content

    /** new MimeMessage(session): no headers, no content. */
    constructor ()
      ensures headers == [] && content == NoContent
    {
      headers := [];
      content := NoContent;
    }

    /** new MimeMessage(session, stream): the message read back from a written body part. */
    constructor FromPart(part: Content)
      ensures headers == [] && content == part
    {
      headers := [];
      content := part;
    }

    method AddHeaderLine(line: string)
      modifies this
      ensures headers == old(headers) + [line] && content == old(content)
    {
      headers := headers + [line];
    }

    method SetContent(c: Content)
      modifies this
      ensures content == c && headers == old(headers)
    {
      content := c;
    }
  }

  function SnapshotOf(m: MimeMessage): Snapshot
    reads m
  {
    Snapshot(m.headers, m.content)
  }

  /** What a method returning a new message returned, as a value. */
  function Observe(r: Result<MimeMessage, SmocError>): Result<Snapshot, SmocError>
    reads if r.Success? then {r.value} else {}
  {
    match r
    case Success(m) => Success(SnapshotOf(m))
    case Failure(e) => Failure(e)
  }

  /**
   * A key store entry: a private key with its certificate, a secret (symmetric) key, which has
   * no certificate, or a trusted certificate only.
   */
  datatype KeyStoreEntry =
    | PrivateKeyEntry(certificate: Certificate, key: PrivateKey, keyPassword: string)
    | SecretKeyEntry
    | TrustedCertificateEntry(certificate: Certificate)

  /** The contents of a key store file. */
  datatype KeyStoreImage = KeyStoreImage(storeType: string, storePassword: string, entries: map<string, KeyStoreEntry>)

  /** The object a PEMReader reads from a file. */
  datatype PemObject =
    | PemCertificate(certificate: Certificate)
      /** An object of another kind (a key, a request). */
    | PemOther
      /** readObject finds no object in the file and returns null. */
    | PemNone
      /** readObject throws an IOException: a block of a type it does not know, or a certificate that does not parse. */
    | PemUnreadable

  /** No two entries of a java.util.Properties table share a key. */
  predicate DistinctKeys(entries: seq<(string, string)>) {
    forall i, j :: 0 <= i < j < |entries| ==> entries[i].0 != entries[j].0
  }

  /** A loaded Properties table as key/value pairs, in the order its key set iterates them. */
  type PropertiesTable = entries: seq<(string, string)> | DistinctKeys(entries) witness []

  /** Whether each foreign call that may throw accepts its arguments; any predicate at all. */
  datatype Libraries = Libraries(
    /** new InternetAddress(s) parses s. */
    acceptsAddress: string -> bool,
    /** JcaSimpleSignerInfoGeneratorBuilder.build(algorithm, key, certificate) with the provider set. */
    buildsSignerInfo: (string, PrivateKey, Certificate, string) -> bool,
    /** SMIMESignedGenerator.generate(content, provider). */
    signs: (Content, SignedGenerator, string) -> bool,
    /** new JceKeyTransRecipientInfoGenerator(certificate) encodes the certificate. */
    encodesCertificate: Certificate -> bool,
    /** The content encryptor builds and SMIMEEnvelopedGenerator.generate succeeds. */
    envelopes: (Content, Certificate, CmsAlgorithm, string) -> bool)

  /** The mail servers. */
  datatype Network = Network(
    /** Transport.send succeeds for a message under these session properties. */
    smtpDelivers: (map<string, string>, seq<string>, Content) -> bool,
    /** Mail store accounts by (protocol, host, user name, password), with the folders each holds. */
    imapAccounts: map<(string, string, string, string), set<string>>)

  /**
   * Everything outside the program: files as each reader sees them, the installed security
   * providers with the key store types they implement, the JVM system properties, the
   * libraries and the network.
   */
  datatype Environment = Environment(
    configFiles: map<string, PropertiesTable>,
    textFiles: map<string, string>,
    keyStoreFiles: map<string, KeyStoreImage>,
    pemFiles: map<string, PemObject>,
    providers: map<string, set<string>>,
    systemProperties: map<string, string>,
    library: Libraries,
    network: Network)

  /** KeyStore.getInstance(type, provider) followed by KeyStore.load(file, passphrase). */
  function OpenKeyStore(env: Environment, filename: string, provider: string, storeType: string, passphrase: string)
    : (r: Result<KeyStoreImage, SmocError>)
    ensures r.Success? ==> filename in env.keyStoreFiles && r.value == env.keyStoreFiles[filename]
    ensures r.Success? ==> r.value.storePassword == passphrase && r.value.storeType == storeType
    ensures r.Success? <==>
      && provider in env.providers && storeType in env.providers[provider]
      && filename in env.keyStoreFiles
      && env.keyStoreFiles[filename].storeType == storeType && env.keyStoreFiles[filename].storePassword == passphrase
    ensures provider !in env.providers ==> r == Failure(NoSuchProvider(provider))
    ensures provider in env.providers && storeType !in env.providers[provider] ==> r == Failure(KeyStoreTypeNotFound(storeType))
    ensures provider in env.providers && storeType in env.providers[provider] && r.Failure? ==> r == Failure(IOError(filename))
  {
    if provider !in env.providers then Failure(NoSuchProvider(provider))
    else if storeType !in env.providers[provider] then Failure(KeyStoreTypeNotFound(storeType))
    else if filename !in env.keyStoreFiles then Failure(IOError(filename))
    else
      var image := env.keyStoreFiles[filename];
      if image.storeType != storeType || image.storePassword != passphrase then Failure(IOError(filename))
      else Success(image)
  }

  /** KeyStore.isKeyEntry(alias). */
  predicate IsKeyEntry(image: KeyStoreImage, alias: string) {
    alias in image.entries && !image.entries[alias].TrustedCertificateEntry?
  }
}

=== FILE: orchestrator.dfy ===
/**
 * Smoc: reads the configuration once, sets up the SMTP mailer and the mail store
 * synchronizer, then sends a missive through a fixed chain of stages: read the file, load
 * both key stores, compose, sign, envelope for the recipient, send, envelope for the
 * sender, append to Sent items. Any stage that fails ends the chain with its error.
 */
module Orchestrator {
  import opened Wrappers
  import opened Errors
  import opened Library
  import Configuration
  import SenderKeys
  import RecipientKeys
  import Smime
  import Signer
  import SmtpMail
  import ImapSync

  /** The settings the constructor reads unconditionally. */
  const SetUpKeys: set<string> := {
    "sender.name", "sender.address", "recipient.address", "smtp.host", "smtp.username", "smtp.password",
    "imap.host", "imap.username", "imap.password", "imap.protocol", "imap.folder"}

  /** The settings sendMissive reads. */
  const MissiveKeys: set<string> := {
    "sender.keystore.file", "sender.keystore.alias", "sender.keystore.provider", "sender.keystore.type",
    "sender.keystore.password", "recipient.key.file", "sign.algorithm", "smime.cms.algorithm"}

  /** The stages of sendMissive, in the order they run. */
  datatype Stage =
    | ReadFile | LoadSenderKeys | LoadRecipientKeys | Compose | CreateSigner | Sign
    | EncryptForRecipient | Send | EncryptForSender | Synchronize

  const StageOrder: seq<Stage> := [
    ReadFile, LoadSenderKeys, LoadRecipientKeys, Compose, CreateSigner, Sign,
    EncryptForRecipient, Send, EncryptForSender, Synchronize]

  /** What a completed stage produced. */
  datatype Event =
    | FileRead(text: string)
    | SenderKeysLoaded(certificate: Certificate, privateKey: PrivateKey, provider: string)
    | RecipientKeysLoaded(certificate: Certificate)
    | Composed(message: Snapshot)
    | SignerCreated(generator: SignedGenerator)
    | Signed(message: Snapshot)
    | EncryptedForRecipient(message: Snapshot)
    | Sent(message: Snapshot)
    | EncryptedForSender(message: Snapshot)
    | Synchronized(folder: string, message: Snapshot)

  function StageOf(e: Event): Stage {
    match e
    case FileRead(_) => ReadFile
    case SenderKeysLoaded(_, _, _) => LoadSenderKeys
    case RecipientKeysLoaded(_) => LoadRecipientKeys
    case Composed(_) => Compose
    case SignerCreated(_) => CreateSigner
    case Signed(_) => Sign
    case EncryptedForRecipient(_) => EncryptForRecipient
    case Sent(_) => Send
    case EncryptedForSender(_) => EncryptForSender
    case Synchronized(_, _) => Synchronize
  }

  /** The completed stages are a prefix of the stage order, each recording what its stage produces. */
  predicate FollowsStageOrder(log: seq<Event>) {
    && |log| <= |StageOrder|
    && (|log| > 0 ==> log[0].FileRead?)
    && (|log| > 1 ==> log[1].SenderKeysLoaded?)
    && (|log| > 2 ==> log[2].RecipientKeysLoaded?)
    && (|log| > 3 ==> log[3].Composed?)
    && (|log| > 4 ==> log[4].SignerCreated?)
    && (|log| > 5 ==> log[5].Signed?)
    && (|log| > 6 ==> log[6].EncryptedForRecipient?)
    && (|log| > 7 ==> log[7].Sent?)
    && (|log| > 8 ==> log[8].EncryptedForSender?)
    && (|log| > 9 ==> log[9].Synchronized?)
  }

  /** Following the stage order means the i-th event comes from the i-th stage, and conversely. */
  lemma FollowsStageOrderByStage(log: seq<Event>)
    ensures FollowsStageOrder(log) <==>
      |log| <= |StageOrder| && forall i :: 0 <= i < |log| ==> StageOf(log[i]) == StageOrder[i]
  {
    if |log| <= |StageOrder| && forall i :: 0 <= i < |log| ==> StageOf(log[i]) == StageOrder[i] {
      forall i | 0 <= i < |log|
        ensures StageOf(log[i]) == StageOrder[i]
      {
      }
    }
  }

  /** What the stages of one missive see of the Smoc object: the settings, the mailer and the mail store account. */
  datatype MissiveContext = MissiveContext(
    config: map<string, string>,
    from: string,
    to: string,
    sessionProperties: map<string, string>,
    imapProtocol: string,
    imapHost: string,
    imapUsername: string,
    imapPassword: string,
    imapFolder: string)

  /** A setting's value, as the settings map's get gives it; the empty string stands for a key the settings lack. */
  function Lookup(config: map<string, string>, key: string): string {
    if key in config then config[key] else ""
  }

  /** A setting's value in a context. */
  function Setting(ctx: MissiveContext, key: string): string {
    Lookup(ctx.config, key)
  }

  /** The sender key entry the settings point to. */
  function SenderEntry(env: Environment, ctx: MissiveContext): Result<KeyStoreEntry, SmocError> {
    SenderKeys.SenderKeyEntry(env, Setting(ctx, "sender.keystore.file"), Setting(ctx, "sender.keystore.alias"),
                              Setting(ctx, "sender.keystore.provider"), Setting(ctx, "sender.keystore.type"),
                              Setting(ctx, "sender.keystore.password"))
  }

  /** The two envelopes of one missive, for a given certificate. */
  function EnvelopeFor(env: Environment, ctx: MissiveContext, log: seq<Event>, recipient: Certificate): Result<Snapshot, SmocError>
    requires |log| > 5 && log[1].SenderKeysLoaded? && log[3].Composed? && log[5].Signed?
  {
    Smime.Envelope(env, log[5].message.content, log[3].message.headers, recipient, log[1].provider,
                   Setting(ctx, "smime.cms.algorithm"))
  }

  /** The k-th event is what the k-th stage produces from the inputs and the earlier events. */
  predicate StageMatches(env: Environment, ctx: MissiveContext, subject: string, filename: string, log: seq<Event>, k: nat)
    requires FollowsStageOrder(log) && k < |log|
  {
    match k
    case 0 => filename in env.textFiles && log[0] == FileRead(env.textFiles[filename])
    case 1 =>
      && SenderEntry(env, ctx).Success?
      && SenderEntry(env, ctx).value == PrivateKeyEntry(log[1].certificate, log[1].privateKey, Setting(ctx, "sender.keystore.password"))
      && log[1].provider == Setting(ctx, "sender.keystore.provider")
    case 2 => RecipientKeys.ReadCertificate(env, Setting(ctx, "recipient.key.file")) == Success(log[2].certificate)
    case 3 => SmtpMail.ComposedBody(env, ctx.from, ctx.to, subject, log[0].text) == Success(log[3].message)
    case 4 =>
      && env.library.buildsSignerInfo(Setting(ctx, "sign.algorithm"), log[1].privateKey, log[1].certificate, log[1].provider)
      && Signer.IsSenderGenerator(log[4].generator, Setting(ctx, "sign.algorithm"), log[1].privateKey,
                                  log[1].certificate, log[1].provider)
    case 5 => Signer.Signature(env, log[3].message, log[4].generator, log[1].provider) == Success(log[5].message)
    case 6 => EnvelopeFor(env, ctx, log, log[2].certificate) == Success(log[6].message)
    case 7 =>
      && log[7] == Sent(log[6].message)
      && env.network.smtpDelivers(ctx.sessionProperties, log[6].message.headers, log[6].message.content)
    case 8 => EnvelopeFor(env, ctx, log, log[1].certificate) == Success(log[8].message)
    case _ =>
      && log[k] == Synchronized(ctx.imapFolder, log[8].message)
      && ImapSync.Archive(env, ctx.imapProtocol, ctx.imapHost, ctx.imapUsername, ctx.imapPassword, ctx.imapFolder).Pass?
  }

  /** Every completed stage produced what that stage produces from the inputs and the earlier results. */
  predicate StagesMatch(env: Environment, ctx: MissiveContext, subject: string, filename: string, log: seq<Event>)
    requires FollowsStageOrder(log)
    decreases |log|
  {
    log == [] ||
      (StagesMatch(env, ctx, subject, filename, log[..|log| - 1]) && StageMatches(env, ctx, subject, filename, log, |log| - 1))
  }

  /** A stage's match depends only on the events up to it. */
  lemma StageMatchesPrefix(env: Environment, ctx: MissiveContext, subject: string, filename: string, log: seq<Event>,
                           n: nat, k: nat)
    requires FollowsStageOrder(log) && k < n <= |log|
    ensures StageMatches(env, ctx, subject, filename, log[..n], k) <==> StageMatches(env, ctx, subject, filename, log, k)
  {
  }

  /** Appending the event of the next stage keeps the stages matched. */
  lemma StagesMatchExtend(env: Environment, ctx: MissiveContext, subject: string, filename: string, log: seq<Event>, e: Event)
    requires FollowsStageOrder(log + [e]) && StagesMatch(env, ctx, subject, filename, log)
    requires StageMatches(env, ctx, subject, filename, log + [e], |log|)
    ensures StagesMatch(env, ctx, subject, filename, log + [e])
  {
    assert (log + [e])[..|log|] == log;
  }

  /** In a matched log, every stage matches. */
  lemma {:induction false} StagesMatchAt(env: Environment, ctx: MissiveContext, subject: string, filename: string,
                                         log: seq<Event>, k: nat)
    requires FollowsStageOrder(log) && StagesMatch(env, ctx, subject, filename, log) && k < |log|
    ensures StageMatches(env, ctx, subject, filename, log, k)
    decreases |log|
  {
    if k < |log| - 1 {
      StagesMatchAt(env, ctx, subject, filename, log[..|log| - 1], k);
      assert log[..|log| - 1][..k + 1] == log[..k + 1];
      StageMatchesPrefix(env, ctx, subject, filename, log, |log| - 1, k);
    }
  }

  /** The stage after the completed ones failed, with `error`. */
  predicate NextStageFailed(env: Environment, ctx: MissiveContext, subject: string, filename: string, log: seq<Event>,
                            error: SmocError)
    requires FollowsStageOrder(log) && |log| < |StageOrder|
  {
    match |log|
    case 0 => filename !in env.textFiles && error == IOError(filename)
    case 1 => SenderEntry(env, ctx) == Failure(error)
    case 2 => RecipientKeys.ReadCertificate(env, Setting(ctx, "recipient.key.file")) == Failure(error)
    case 3 => SmtpMail.ComposedBody(env, ctx.from, ctx.to, subject, log[0].text) == Failure(error)
    case 4 =>
      && !env.library.buildsSignerInfo(Setting(ctx, "sign.algorithm"), log[1].privateKey, log[1].certificate, log[1].provider)
      && error == OperatorCreation(Setting(ctx, "sign.algorithm"))
    case 5 => Signer.Signature(env, log[3].message, log[4].generator, log[1].provider) == Failure(error)
    case 6 => EnvelopeFor(env, ctx, log, log[2].certificate) == Failure(error)
    case 7 =>
      && !env.network.smtpDelivers(ctx.sessionProperties, log[6].message.headers, log[6].message.content)
      && error == MessagingFailure
    case 8 => EnvelopeFor(env, ctx, log, log[1].certificate) == Failure(error)
    case _ =>
      ImapSync.Archive(env, ctx.imapProtocol, ctx.imapHost, ctx.imapUsername, ctx.imapPassword, ctx.imapFolder) == Fail(error)
  }

  /** The outcome of one call of sendMissive after a successful configuration check, and the stages it completed. */
  datatype Run = Run(result: Result<bool, SmocError>, log: seq<Event>)

  /**
   * What sendMissive does, as a value: the stages in order, each fed by the earlier ones,
   * stopping at the first failure with its error.
   */
  function Missive(env: Environment, ctx: MissiveContext, subject: string, filename: string): (r: Run)
    ensures filename !in env.textFiles ==> r == Run(Failure(IOError(filename)), [])
    ensures |r.log| > 0 ==> filename in env.textFiles && r.log[0] == FileRead(env.textFiles[filename])
    ensures |r.log| <= |StageOrder| && r.result != Success(false)
    ensures r.result.Success? <==> |r.log| == |StageOrder|
  {
    if filename !in env.textFiles then Run(Failure(IOError(filename)), []) else
    var text := env.textFiles[filename];
    var log0 := [FileRead(text)];
    match SenderEntry(env, ctx)
    case Failure(e) => Run(Failure(e), log0)
    case Success(entry) =>
    var provider := Setting(ctx, "sender.keystore.provider");
    RecipientLoading(env, ctx, subject, text, entry.certificate, entry.key, provider,
                     log0 + [SenderKeysLoaded(entry.certificate, entry.key, provider)])
  }

  /** The third stage of sendMissive: load the recipient's certificate. */
  function RecipientLoading(env: Environment, ctx: MissiveContext, subject: string, text: string, sender: Certificate,
                            key: PrivateKey, provider: string, log: seq<Event>): (r: Run)
    ensures log <= r.log && |r.log| <= |log| + 8 && r.result != Success(false)
    ensures r.result.Success? <==> |r.log| == |log| + 8
  {
    match RecipientKeys.ReadCertificate(env, Setting(ctx, "recipient.key.file"))
    case Failure(e) => Run(Failure(e), log)
    case Success(recipient) =>
    Signing(env, ctx, subject, text, sender, key, provider, recipient, log + [RecipientKeysLoaded(recipient)])
  }

  /** The middle of sendMissive: compose the body, set up the signer, sign. */
  function Signing(env: Environment, ctx: MissiveContext, subject: string, text: string, sender: Certificate,
                   key: PrivateKey, provider: string, recipient: Certificate, log: seq<Event>): (r: Run)
    ensures log <= r.log && |r.log| <= |log| + 7 && r.result != Success(false)
    ensures r.result.Success? <==> |r.log| == |log| + 7
  {
    match SmtpMail.ComposedBody(env, ctx.from, ctx.to, subject, text)
    case Failure(e) => Run(Failure(e), log)
    case Success(body) =>
    var log3 := log + [Composed(body)];
    var signAlgorithm := Setting(ctx, "sign.algorithm");
    if !env.library.buildsSignerInfo(signAlgorithm, key, sender, provider)
    then Run(Failure(OperatorCreation(signAlgorithm)), log3) else
    var generator := Signer.SenderGenerator(signAlgorithm, key, sender, provider);
    var log4 := log3 + [SignerCreated(generator)];
    match Signer.Signature(env, body, generator, provider)
    case Failure(e) => Run(Failure(e), log4)
    case Success(signed) =>
    Delivery(env, ctx, body, signed, recipient, sender, provider, log4 + [Signed(signed)])
  }

  /** Once the file is read and both key stores are loaded, sendMissive goes on as Signing. */
  lemma MissiveAfterLoading(env: Environment, ctx: MissiveContext, subject: string, filename: string,
                            sender: Certificate, key: PrivateKey, recipient: Certificate)
    requires filename in env.textFiles
    requires SenderEntry(env, ctx) == Success(PrivateKeyEntry(sender, key, Setting(ctx, "sender.keystore.password")))
    requires RecipientKeys.ReadCertificate(env, Setting(ctx, "recipient.key.file")) == Success(recipient)
    ensures
      var provider := Setting(ctx, "sender.keystore.provider");
      Missive(env, ctx, subject, filename) ==
        Signing(env, ctx, subject, env.textFiles[filename], sender, key, provider, recipient,
                [FileRead(env.textFiles[filename])] + [SenderKeysLoaded(sender, key, provider)] + [RecipientKeysLoaded(recipient)])
  {
  }

  /**
   * The second half of sendMissive: envelope for the recipient, send, envelope for the
   * sender, append to Sent items.
   */
  function Delivery(env: Environment, ctx: MissiveContext, body: Snapshot, signed: Snapshot, recipient: Certificate,
                    sender: Certificate, provider: string, log: seq<Event>): (r: Run)
    ensures log <= r.log && |r.log| <= |log| + 4 && r.result != Success(false)
    ensures r.result.Success? <==> |r.log| == |log| + 4
    ensures |r.log| > |log| + 1 ==>
      r.log[|log|].EncryptedForRecipient? && r.log[|log| + 1] == Sent(r.log[|log|].message)
  {
    var cms := Setting(ctx, "smime.cms.algorithm");
    match Smime.Envelope(env, signed.content, body.headers, recipient, provider, cms)
    case Failure(e) => Run(Failure(e), log)
    case Success(forRecipient) =>
    var log6 := log + [EncryptedForRecipient(forRecipient)];
    if !env.network.smtpDelivers(ctx.sessionProperties, forRecipient.headers, forRecipient.content)
    then Run(Failure(MessagingFailure), log6) else
    Archiving(env, ctx, body, signed, sender, provider, log6 + [Sent(forRecipient)])
  }

  /** The end of sendMissive, once the message is sent: envelope for the sender, append to Sent items. */
  function Archiving(env: Environment, ctx: MissiveContext, body: Snapshot, signed: Snapshot, sender: Certificate,
                     provider: string, log: seq<Event>): (r: Run)
    ensures log <= r.log && |r.log| <= |log| + 2 && r.result != Success(false)
    ensures r.result.Success? <==> |r.log| == |log| + 2
  {
    match Smime.Envelope(env, signed.content, body.headers, sender, provider, Setting(ctx, "smime.cms.algorithm"))
    case Failure(e) => Run(Failure(e), log)
    case Success(forSender) => Synchronizing(env, ctx, forSender, log + [EncryptedForSender(forSender)])
  }

  /** The last stage of sendMissive: append the sender's copy to Sent items. */
  function Synchronizing(env: Environment, ctx: MissiveContext, forSender: Snapshot, log: seq<Event>): (r: Run)
    ensures r.result != Success(false)
    ensures r.result.Success? <==>
      ImapSync.Archive(env, ctx.imapProtocol, ctx.imapHost, ctx.imapUsername, ctx.imapPassword, ctx.imapFolder).Pass?
    ensures r.log == if r.result.Success? then log + [Synchronized(ctx.imapFolder, forSender)] else log
  {
    match ImapSync.Archive(env, ctx.imapProtocol, ctx.imapHost, ctx.imapUsername, ctx.imapPassword, ctx.imapFolder)
    case Fail(e) => Run(Failure(e), log)
    case Pass => Run(Success(true), log + [Synchronized(ctx.imapFolder, forSender)])
  }

  /**
   * A run completes the stages in order, each producing what that stage produces from the
   * earlier results; it returns true exactly when all ten stages completed, and otherwise
   * stops with the error of the stage after the last completed one.
   */
  predicate FollowsTheStages(env: Environment, ctx: MissiveContext, subject: string, filename: string, run: Run) {
    && FollowsStageOrder(run.log)
    && StagesMatch(env, ctx, subject, filename, run.log)
    && run.result != Success(false)
    && (run.result.Success? <==> |run.log| == |StageOrder|)
    && (run.result.Failure? ==> NextStageFailed(env, ctx, subject, filename, run.log, run.result.error))
  }

  /** Every run of sendMissive follows the stages. */
  lemma MissiveFollowsTheStages(env: Environment, ctx: MissiveContext, subject: string, filename: string)
    ensures FollowsTheStages(env, ctx, subject, filename, Missive(env, ctx, subject, filename))
  {
    if filename in env.textFiles {
      var text := env.textFiles[filename];
      var log0 := [FileRead(text)];
      assert [] + log0 == log0;
      StagesMatchExtend(env, ctx, subject, filename, [], FileRead(text));
      var entry := SenderEntry(env, ctx);
      if entry.Success? {
        var provider := Setting(ctx, "sender.keystore.provider");
        var log1 := log0 + [SenderKeysLoaded(entry.value.certificate, entry.value.key, provider)];
        StagesMatchExtend(env, ctx, subject, filename, log0, log1[1]);
        RecipientLoadingFollowsTheStages(env, ctx, subject, filename, log1);
      }
    }
  }

  /** Once the sender's keys are loaded, the rest of the run follows the stages. */
  lemma RecipientLoadingFollowsTheStages(env: Environment, ctx: MissiveContext, subject: string, filename: string,
                                         log: seq<Event>)
    requires FollowsStageOrder(log) && |log| == 2 && StagesMatch(env, ctx, subject, filename, log)
    ensures FollowsTheStages(env, ctx, subject, filename,
      RecipientLoading(env, ctx, subject, log[0].text, log[1].certificate, log[1].privateKey, log[1].provider, log))
  {
    var recipient := RecipientKeys.ReadCertificate(env, Setting(ctx, "recipient.key.file"));
    if recipient.Success? {
      var log2 := log + [RecipientKeysLoaded(recipient.value)];
      StagesMatchExtend(env, ctx, subject, filename, log, log2[2]);
      SigningFollowsTheStages(env, ctx, subject, filename, log2);
    }
  }

  /** Once the keys are loaded, the rest of the run follows the stages. */
  lemma SigningFollowsTheStages(env: Environment, ctx: MissiveContext, subject: string, filename: string, log: seq<Event>)
    requires FollowsStageOrder(log) && |log| == 3 && StagesMatch(env, ctx, subject, filename, log)
    ensures FollowsTheStages(env, ctx, subject, filename,
      Signing(env, ctx, subject, log[0].text, log[1].certificate, log[1].privateKey, log[1].provider, log[2].certificate, log))
  {
    var composed := SmtpMail.ComposedBody(env, ctx.from, ctx.to, subject, log[0].text);
    if composed.Success? {
      var log3 := log + [Composed(composed.value)];
      StagesMatchExtend(env, ctx, subject, filename, log, log3[3]);
      var signAlgorithm := Setting(ctx, "sign.algorithm");
      var provider := log[1].provider;
      if env.library.buildsSignerInfo(signAlgorithm, log[1].privateKey, log[1].certificate, provider) {
        var generator := Signer.SenderGenerator(signAlgorithm, log[1].privateKey, log[1].certificate, provider);
        var log4 := log3 + [SignerCreated(generator)];
        StagesMatchExtend(env, ctx, subject, filename, log3, log4[4]);
        var signed := Signer.Signature(env, composed.value, generator, provider);
        if signed.Success? {
          var log5 := log4 + [Signed(signed.value)];
          StagesMatchExtend(env, ctx, subject, filename, log4, log5[5]);
          DeliveryFollowsTheStages(env, ctx, subject, filename, log5);
        }
      }
    }
  }

  /** Once the message is signed, the rest of the run follows the stages. */
  lemma DeliveryFollowsTheStages(env: Environment, ctx: MissiveContext, subject: string, filename: string, log: seq<Event>)
    requires FollowsStageOrder(log) && |log| == 6 && StagesMatch(env, ctx, subject, filename, log)
    ensures FollowsTheStages(env, ctx, subject, filename,
      Delivery(env, ctx, log[3].message, log[5].message, log[2].certificate, log[1].certificate, log[1].provider, log))
  {
    var forRecipient := EnvelopeFor(env, ctx, log, log[2].certificate);
    if forRecipient.Success? {
      var log6 := log + [EncryptedForRecipient(forRecipient.value)];
      StagesMatchExtend(env, ctx, subject, filename, log, log6[6]);
      if env.network.smtpDelivers(ctx.sessionProperties, forRecipient.value.headers, forRecipient.value.content) {
        var log7 := log6 + [Sent(forRecipient.value)];
        StagesMatchExtend(env, ctx, subject, filename, log6, log7[7]);
        ArchivingFollowsTheStages(env, ctx, subject, filename, log7);
      }
    }
  }

  /** Once the message is sent, the rest of the run follows the stages. */
  lemma ArchivingFollowsTheStages(env: Environment, ctx: MissiveContext, subject: string, filename: string, log: seq<Event>)
    requires FollowsStageOrder(log) && |log| == 8 && StagesMatch(env, ctx, subject, filename, log)
    ensures FollowsTheStages(env, ctx, subject, filename,
      Archiving(env, ctx, log[3].message, log[5].message, log[1].certificate, log[1].provider, log))
  {
    var forSender := EnvelopeFor(env, ctx, log, log[1].certificate);
    if forSender.Success? {
      var log8 := log + [EncryptedForSender(forSender.value)];
      StagesMatchExtend(env, ctx, subject, filename, log, log8[8]);
      SynchronizingFollowsTheStages(env, ctx, subject, filename, log8);
    }
  }

  /** Once the sender's copy is enveloped, the rest of the run follows the stages. */
  lemma SynchronizingFollowsTheStages(env: Environment, ctx: MissiveContext, subject: string, filename: string,
                                      log: seq<Event>)
    requires FollowsStageOrder(log) && |log| == 9 && StagesMatch(env, ctx, subject, filename, log)
    ensures FollowsTheStages(env, ctx, subject, filename, Synchronizing(env, ctx, log[8].message, log))
  {
    if ImapSync.Archive(env, ctx.imapProtocol, ctx.imapHost, ctx.imapUsername, ctx.imapPassword, ctx.imapFolder).Pass? {
      var log9 := log + [Synchronized(ctx.imapFolder, log[8].message)];
      StagesMatchExtend(env, ctx, subject, filename, log, log9[9]);
    }
  }

  // ---------------------------------------------------------------------------------------
  // What a run guarantees
  // ---------------------------------------------------------------------------------------

  /** A run holds at most one sending, the eighth stage. */
  lemma SentOnlyOnce(log: seq<Event>)
    requires FollowsStageOrder(log)
    ensures forall j :: 0 <= j < |log| && log[j].Sent? ==> j == 7
  {
  }

  /**
   * The message sent is the composed body, signed with the sender's generator, then
   * enveloped for the recipient's certificate under the configured algorithm.
   */
  lemma SentMessageIsSignedThenEnveloped(env: Environment, ctx: MissiveContext, subject: string, filename: string,
                                         log: seq<Event>)
    requires FollowsStageOrder(log) && StagesMatch(env, ctx, subject, filename, log)
    requires |log| > 7
    ensures log[7].message == log[6].message
    ensures log[7].message.content.Enveloped? && log[7].message.content.recipient == log[2].certificate
    ensures Smime.CmsName(log[7].message.content.algorithm) == Setting(ctx, "smime.cms.algorithm")
    ensures log[7].message.content.encryptedPart.SignedMultipart?
    ensures log[7].message.content.encryptedPart.signedPart == log[3].message.content
    ensures log[7].message.content.encryptedPart.generator == log[4].generator
  {
    StagesMatchAt(env, ctx, subject, filename, log, 5);
    StagesMatchAt(env, ctx, subject, filename, log, 6);
    StagesMatchAt(env, ctx, subject, filename, log, 7);
  }

  /**
   * Both envelopes are built from the same signed message, the same original headers, the
   * same algorithm and the same provider; they differ only in the certificate, the
   * recipient's for the copy that is sent and the sender's own for the archived copy.
   */
  lemma EnvelopesShareTheSignedMessage(env: Environment, ctx: MissiveContext, subject: string, filename: string,
                                       log: seq<Event>)
    requires FollowsStageOrder(log) && StagesMatch(env, ctx, subject, filename, log)
    requires |log| > 8
    ensures log[6].message.content.Enveloped? && log[8].message.content.Enveloped?
    ensures log[6].message.content.encryptedPart == log[5].message.content == log[8].message.content.encryptedPart
    ensures log[6].message.content.recipient == log[2].certificate
    ensures log[8].message.content.recipient == log[1].certificate
    ensures log[6].message.content.algorithm == log[8].message.content.algorithm
    ensures Smime.CmsName(log[6].message.content.algorithm) == Setting(ctx, "smime.cms.algorithm")
    ensures log[6].message.headers == log[8].message.headers
    ensures log[6].message.content.(recipient := log[1].certificate) == log[8].message.content
  {
    StagesMatchAt(env, ctx, subject, filename, log, 6);
    StagesMatchAt(env, ctx, subject, filename, log, 8);
    Smime.EnvelopesDifferOnlyInRecipient(env, log[5].message.content, log[3].message.headers, log[2].certificate,
                                         log[1].certificate, log[1].provider, Setting(ctx, "smime.cms.algorithm"));
  }

  /**
   * The envelopes carry the composed body's header lines without the content ones; since
   * the signature kept every line of the body, the signed message's lines would give the
   * same result.
   */
  lemma EnvelopeHeadersComeFromTheBody(env: Environment, ctx: MissiveContext, subject: string, filename: string,
                                       log: seq<Event>)
    requires FollowsStageOrder(log) && StagesMatch(env, ctx, subject, filename, log)
    requires |log| > 6
    ensures log[5].message.headers == log[3].message.headers
    ensures log[6].message.headers == Smime.FilterHeaders(log[3].message.headers)
    ensures forall line :: line in log[6].message.headers <==> line in log[3].message.headers && !Smime.IsContentHeader(line)
  {
    StagesMatchAt(env, ctx, subject, filename, log, 5);
    StagesMatchAt(env, ctx, subject, filename, log, 6);
  }

  /**
   * In a complete run, the body is the file's text, the message sent is the recipient's
   * envelope and the message appended to the configured folder is the sender's.
   */
  lemma SentAndArchivedMessages(env: Environment, ctx: MissiveContext, subject: string, filename: string, log: seq<Event>)
    requires FollowsStageOrder(log) && StagesMatch(env, ctx, subject, filename, log)
    requires |log| == |StageOrder|
    ensures filename in env.textFiles && log[3].message.content == Text(env.textFiles[filename], SmtpMail.BodyMimeType)
    ensures log[7].message == log[6].message
    ensures log[6].message.content.Enveloped? && log[6].message.content.recipient == log[2].certificate
    ensures log[9].message == log[8].message
    ensures log[8].message.content.Enveloped? && log[8].message.content.recipient == log[1].certificate
    ensures log[9].folder == ctx.imapFolder
  {
    StagesMatchAt(env, ctx, subject, filename, log, 0);
    StagesMatchAt(env, ctx, subject, filename, log, 3);
    StagesMatchAt(env, ctx, subject, filename, log, 6);
    StagesMatchAt(env, ctx, subject, filename, log, 7);
    StagesMatchAt(env, ctx, subject, filename, log, 8);
    StagesMatchAt(env, ctx, subject, filename, log, 9);
  }

  /** Every key of `keys` is required, and a successful parse holds every required key. */
  lemma KeysCovered(keys: set<string>, required: seq<string>, config: map<string, string>)
    requires keys <= set name | name in required
    requires forall name :: name in required ==> name in config
    ensures keys <= config.Keys
  {
  }

  // ---------------------------------------------------------------------------------------
  // The Smoc object
  // ---------------------------------------------------------------------------------------

  class Smoc {
    var hasConfiguration: bool
    var hasValidConfiguration: bool
    var smocConfig: map<string, string>
    var smtpMailer: SmtpMail.SmtpMailer?
    var imapSynchronizer: ImapSync.ImapSynchronizer?

    /** A valid configuration comes with its mailer and synchronizer and holds every setting a missive needs. */
    predicate Valid()
      reads this, smtpMailer
    {
      hasValidConfiguration ==>
        && hasConfiguration
        && smtpMailer != null && imapSynchronizer != null
        && MissiveKeys <= smocConfig.Keys
        && smtpMailer.SessionConfigured()
    }

    /** The field initialisers: no configuration yet, empty settings, no mailer. */
    constructor Init()
      ensures !hasConfiguration && !hasValidConfiguration && smocConfig == map[]
      ensures smtpMailer == null && imapSynchronizer == null
      ensures Valid()
    {
      hasConfiguration := false;
      hasValidConfiguration := false;
      smocConfig := map[];
      smtpMailer := null;
      imapSynchronizer := null;
    }

    /**
     * The body of the Java constructor's try block: find the file, parse it, then build the
     * mailer (with the recipient's name when there is one, and the configured port when
     * there is one) and the synchronizer. The two flags record how far it got.
     */
    method Configure(env: Environment, definition: Configuration.ConfigDefinition, configFilename: string)
      returns (o: Outcome<SmocError>)
      requires !hasConfiguration && !hasValidConfiguration
      requires SetUpKeys + MissiveKeys <= set name | name in definition.required
      modifies this
      ensures hasConfiguration <==> configFilename in env.configFiles
      ensures hasValidConfiguration <==> o.Pass?
      ensures configFilename !in env.configFiles ==> o == Fail(ConfigurationFileNotFound(Some(configFilename)))
      ensures configFilename in env.configFiles ==>
        var parsed := Configuration.Validate(env.configFiles[configFilename], definition.required);
        && (o.Pass? <==> parsed.Success?)
        && (o.Fail? ==> o.error == parsed.error)
        && (o.Pass? ==> smocConfig == parsed.value)
      ensures o.Pass? ==>
        && SetUpKeys + MissiveKeys <= smocConfig.Keys
        && fresh(smtpMailer) && fresh(imapSynchronizer)
        && (smtpMailer.recipientName.Some? <==> "recipient.name" in smocConfig)
        && (smtpMailer.recipientName.Some? ==> smtpMailer.recipientName.value == smocConfig["recipient.name"])
        && smtpMailer.port == (if "smtp.port" in smocConfig then smocConfig["smtp.port"] else SmtpMail.DefaultPort)
        && smtpMailer.senderAddress == smocConfig["sender.address"]
        && smtpMailer.recipientAddress == smocConfig["recipient.address"]
        && imapSynchronizer.folder == smocConfig["imap.folder"]
      ensures Valid()
    {
      var readerResult := Configuration.ConfigReader.Open(env, configFilename);
      if readerResult.Failure? {
        hasConfiguration := false;
        return Fail(readerResult.error);
      }
      var configReader := readerResult.value;
      hasConfiguration := true;
      var parsed := configReader.Parse(env, definition);
      if parsed.Failure? {
        hasValidConfiguration := false;
        return Fail(parsed.error);
      }
      smocConfig := parsed.value;
      hasValidConfiguration := true;
      Configuration.ValidateCoversRequired(env.configFiles[configFilename], definition.required);
      KeysCovered(SetUpKeys + MissiveKeys, definition.required, smocConfig);
      SetUpTransports(env);
      o := Pass;
    }

    /**
     * The rest of the try block once the settings are in: the mailer, with the recipient's
     * name when there is one and the configured port when there is one, then the synchronizer.
     */
    method SetUpTransports(env: Environment)
      requires SetUpKeys <= smocConfig.Keys
      modifies this
      ensures smocConfig == old(smocConfig)
      ensures hasConfiguration == old(hasConfiguration) && hasValidConfiguration == old(hasValidConfiguration)
      ensures fresh(smtpMailer) && fresh(imapSynchronizer)
      ensures smtpMailer.SessionConfigured()
      ensures smtpMailer.senderName == smocConfig["sender.name"] && smtpMailer.senderAddress == smocConfig["sender.address"]
      ensures smtpMailer.recipientName.Some? <==> "recipient.name" in smocConfig
      ensures smtpMailer.recipientName.Some? ==> smtpMailer.recipientName.value == smocConfig["recipient.name"]
      ensures smtpMailer.recipientAddress == smocConfig["recipient.address"]
      ensures smtpMailer.host == smocConfig["smtp.host"] && smtpMailer.username == smocConfig["smtp.username"]
      ensures smtpMailer.password == smocConfig["smtp.password"]
      ensures smtpMailer.port == (if "smtp.port" in smocConfig then smocConfig["smtp.port"] else SmtpMail.DefaultPort)
      ensures imapSynchronizer.host == smocConfig["imap.host"] && imapSynchronizer.username == smocConfig["imap.username"]
      ensures imapSynchronizer.password == smocConfig["imap.password"]
      ensures imapSynchronizer.protocol == smocConfig["imap.protocol"] && imapSynchronizer.folder == smocConfig["imap.folder"]
    {
      var config := smocConfig;
      var mailer := NewMailer(env, config);
      smtpMailer := mailer;
      imapSynchronizer := new ImapSync.ImapSynchronizer(config["imap.host"], config["imap.username"],
        config["imap.password"], config["imap.protocol"], config["imap.folder"]);
    }

    /** The mailer of the settings: with the recipient's name when there is one, and the configured port when there is one. */
    static method NewMailer(env: Environment, config: map<string, string>) returns (mailer: SmtpMail.SmtpMailer)
      requires SetUpKeys <= config.Keys
      ensures fresh(mailer)
      ensures mailer.SessionConfigured()
      ensures mailer.senderName == config["sender.name"] && mailer.senderAddress == config["sender.address"]
      ensures mailer.recipientName.Some? <==> "recipient.name" in config
      ensures mailer.recipientName.Some? ==> mailer.recipientName.value == config["recipient.name"]
      ensures mailer.recipientAddress == config["recipient.address"]
      ensures mailer.host == config["smtp.host"] && mailer.username == config["smtp.username"]
      ensures mailer.password == config["smtp.password"]
      ensures mailer.port == (if "smtp.port" in config then config["smtp.port"] else SmtpMail.DefaultPort)
    {
      if "recipient.name" in config {
        mailer := new SmtpMail.SmtpMailer.WithRecipientName(env, config["sender.name"], config["sender.address"],
          config["recipient.name"], config["recipient.address"],
          config["smtp.host"], config["smtp.username"], config["smtp.password"]);
      } else {
        mailer := new SmtpMail.SmtpMailer(env, config["sender.name"], config["sender.address"],
          config["recipient.address"], config["smtp.host"], config["smtp.username"], config["smtp.password"]);
      }
      if "smtp.port" in config {
        mailer.SetPort(config["smtp.port"]);
      }
    }

    /** new Smoc(configFilename): a configured object, or the error that ended the set-up. */
    static method Create(env: Environment, definition: Configuration.ConfigDefinition, configFilename: string)
      returns (r: Result<Smoc, SmocError>)
      requires SetUpKeys + MissiveKeys <= set name | name in definition.required
      ensures configFilename !in env.configFiles ==> r == Failure(ConfigurationFileNotFound(Some(configFilename)))
      ensures configFilename in env.configFiles ==>
        var parsed := Configuration.Validate(env.configFiles[configFilename], definition.required);
        && (r.Success? <==> parsed.Success?)
        && (r.Failure? ==> r.error == parsed.error)
        && (r.Success? ==> r.value.smocConfig == parsed.value)
      ensures r.Success? ==>
        && fresh(r.value) && r.value.Valid()
        && r.value.hasConfiguration && r.value.hasValidConfiguration
      ensures r.Success? ==>
        var smoc := r.value;
        && SetUpKeys + MissiveKeys <= smoc.smocConfig.Keys
        && smoc.smtpMailer != null && smoc.imapSynchronizer != null
        && fresh(smoc.smtpMailer) && fresh(smoc.imapSynchronizer)
        && (smoc.smtpMailer.recipientName.Some? <==> "recipient.name" in smoc.smocConfig)
        && (smoc.smtpMailer.recipientName.Some? ==> smoc.smtpMailer.recipientName.value == smoc.smocConfig["recipient.name"])
        && smoc.smtpMailer.port ==
             (if "smtp.port" in smoc.smocConfig then smoc.smocConfig["smtp.port"] else SmtpMail.DefaultPort)
        && smoc.smtpMailer.senderAddress == smoc.smocConfig["sender.address"]
        && smoc.smtpMailer.recipientAddress == smoc.smocConfig["recipient.address"]
        && smoc.imapSynchronizer.folder == smoc.smocConfig["imap.folder"]
    {
      var smoc := new Smoc.Init();
      var o := smoc.Configure(env, definition, configFilename);
      if o.Fail? {
        return Failure(o.error);
      }
      r := Success(smoc);
    }

    /**
     * validateConfiguration: a missing file, then an invalid one, fail; otherwise true.
     * Past the two checks both flags hold, so the Java method's closing `return false` is
     * unreachable and has no counterpart here.
     */
    function ValidateConfiguration(): (r: Result<bool, SmocError>)
      reads this
      ensures !hasConfiguration ==> r == Failure(ConfigurationFileNotFound(None))
      ensures hasConfiguration && !hasValidConfiguration ==> r == Failure(InvalidConfiguration)
      ensures r.Success? <==> hasConfiguration && hasValidConfiguration
      ensures r != Success(false)
    {
      if !hasConfiguration then Failure(ConfigurationFileNotFound(None))
      else if !hasValidConfiguration then Failure(InvalidConfiguration)
      else Success(true)
    }

    /** What the stages see of this object. */
    function Context(): MissiveContext
      reads this, smtpMailer, imapSynchronizer
      requires smtpMailer != null && imapSynchronizer != null
    {
      MissiveContext(smocConfig, smtpMailer.FromAddress(), smtpMailer.ToAddress(), smtpMailer.properties,
                     imapSynchronizer.protocol, imapSynchronizer.host, imapSynchronizer.username,
                     imapSynchronizer.password, imapSynchronizer.folder)
    }

    /**
     * sendMissive: after the configuration check, run the stages in order and return true
     * once the archived copy is appended; `log` records what each completed stage produced.
     * A failure ends the run with that stage's error, also after the message was sent.
     */
    method SendMissive(env: Environment, subject: string, filename: string)
      returns (r: Result<bool, SmocError>, ghost log: seq<Event>)
      requires Valid()
      ensures ValidateConfiguration().Failure? ==> r == Failure(ValidateConfiguration().error) && log == []
      ensures ValidateConfiguration().Success? ==> r == Missive(env, Context(), subject, filename).result
      ensures ValidateConfiguration().Success? ==> Run(r, log) == Missive(env, Context(), subject, filename)
    {
      log := [];
      var valid := ValidateConfiguration();
      if valid.Failure? {
        return Failure(valid.error), log;
      }
      // ValidateConfiguration never yields false, so the Java method's final `return false` is unreachable.
      ghost var ctx := Context();
      var config := smocConfig;

      if filename !in env.textFiles {
        return Failure(IOError(filename)), log;
      }
      var missiveContent := env.textFiles[filename];
      log := [FileRead(missiveContent)];

      var senderResult := SenderKeys.SenderKeyStore.Load(env, Lookup(config, "sender.keystore.file"),
        Lookup(config, "sender.keystore.alias"), Lookup(config, "sender.keystore.provider"),
        Lookup(config, "sender.keystore.type"), Lookup(config, "sender.keystore.password"));
      if senderResult.Failure? {
        return Failure(senderResult.error), log;
      }
      var senderKeyStore := senderResult.value;
      log := log + [SenderKeysLoaded(senderKeyStore.certificate, senderKeyStore.privateKey, senderKeyStore.keyStoreProvider)];

      var recipientResult := RecipientKeys.RecipientKeyStore.Load(env, Lookup(config, "recipient.key.file"));
      if recipientResult.Failure? {
        return Failure(recipientResult.error), log;
      }
      var recipientKeyStore := recipientResult.value;
      log := log + [RecipientKeysLoaded(recipientKeyStore.certificate)];
      MissiveAfterLoading(env, ctx, subject, filename, senderKeyStore.certificate, senderKeyStore.privateKey,
                          recipientKeyStore.certificate);
      r, log := SignAndDeliver(env, subject, missiveContent, senderKeyStore, recipientKeyStore, log);
      assert Context() == ctx;
    }

    /** The part of sendMissive after the keys are loaded: compose, set up the signer, sign, deliver. */
    method SignAndDeliver(env: Environment, subject: string, missiveContent: string,
                          senderKeyStore: SenderKeys.SenderKeyStore, recipientKeyStore: RecipientKeys.RecipientKeyStore,
                          ghost log: seq<Event>)
      returns (r: Result<bool, SmocError>, ghost log': seq<Event>)
      requires Valid() && hasValidConfiguration
      ensures r == Signing(env, Context(), subject, missiveContent, senderKeyStore.certificate,
                           senderKeyStore.privateKey, senderKeyStore.keyStoreProvider,
                           recipientKeyStore.certificate, log).result
      ensures Run(r, log') == Signing(env, Context(), subject, missiveContent, senderKeyStore.certificate,
                                      senderKeyStore.privateKey, senderKeyStore.keyStoreProvider,
                                      recipientKeyStore.certificate, log)
    {
      log' := log;
      var bodyResult := smtpMailer.CreateSmtpMessageBody(env, subject, missiveContent);
      if bodyResult.Failure? {
        return Failure(bodyResult.error), log';
      }
      var body := bodyResult.value;
      log' := log' + [Composed(SnapshotOf(body))];

      var signAlgorithm := Lookup(smocConfig, "sign.algorithm");
      var signerResult := Signer.SmocSigner.Create(env, senderKeyStore, signAlgorithm);
      if signerResult.Failure? {
        return Failure(signerResult.error), log';
      }
      var signer := signerResult.value;
      Signer.SenderGeneratorUnique(signer.signer, signAlgorithm, senderKeyStore.privateKey,
                                   senderKeyStore.certificate, senderKeyStore.keyStoreProvider);
      log' := log' + [SignerCreated(signer.signer)];

      var signedResult := signer.Sign(env, body);
      if signedResult.Failure? {
        return Failure(signedResult.error), log';
      }
      var signedMessage := signedResult.value;
      log' := log' + [Signed(SnapshotOf(signedMessage))];

      var smime := new Smime.Smime(recipientKeyStore, senderKeyStore);
      r, log' := Deliver(env, smime, body, signedMessage, log');
    }

    /**
     * The part of sendMissive after signing: envelope for the recipient and send, then
     * envelope for the sender and append to Sent items.
     */
    method Deliver(env: Environment, smime: Smime.Smime, body: MimeMessage, signedMessage: MimeMessage, ghost log: seq<Event>)
      returns (r: Result<bool, SmocError>, ghost log': seq<Event>)
      requires Valid() && hasValidConfiguration
      ensures r == Delivery(env, Context(), SnapshotOf(body), SnapshotOf(signedMessage),
                            smime.recipientKeyStore.certificate, smime.senderKeyStore.certificate,
                            smime.senderKeyStore.keyStoreProvider, log).result
      ensures Run(r, log') == Delivery(env, Context(), SnapshotOf(body), SnapshotOf(signedMessage),
                                       smime.recipientKeyStore.certificate, smime.senderKeyStore.certificate,
                                       smime.senderKeyStore.keyStoreProvider, log)
    {
      log' := log;
      var cmsAlgorithm := Lookup(smocConfig, "smime.cms.algorithm");
      var forRecipient := smime.EncryptForRecipient(env, signedMessage, body, cmsAlgorithm);
      if forRecipient.Failure? {
        return Failure(forRecipient.error), log';
      }
      log' := log' + [EncryptedForRecipient(SnapshotOf(forRecipient.value))];
      var sent := smtpMailer.Send(env, forRecipient.value);
      if sent.Fail? {
        return Failure(sent.error), log';
      }
      log' := log' + [Sent(SnapshotOf(forRecipient.value))];

      var forSender := smime.EncryptForSender(env, signedMessage, body, cmsAlgorithm);
      if forSender.Failure? {
        return Failure(forSender.error), log';
      }
      log' := log' + [EncryptedForSender(SnapshotOf(forSender.value))];
      var synchronized := imapSynchronizer.Synchronize(env, forSender.value);
      if synchronized.Fail? {
        return Failure(synchronized.error), log';
      }
      log' := log' + [Synchronized(imapSynchronizer.folder, SnapshotOf(forSender.value))];
      r := Success(true);
    }
  }
}

=== FILE: recipient_keys.dfy ===
/** RecipientKeyStore: the recipient's certificate, read from a PEM file. */
module RecipientKeys {
  import opened Wrappers
  import opened Errors
  import opened Library

  /**
   * The certificate a PEM key file holds. A missing file, an object of another kind (the
   * failed cast) and a block the reader cannot read fail, naming the file; an empty file gives
   * a null object, whose public key is then asked for.
   */
  function ReadCertificate(env: Environment, keyFilename: string): (r: Result<Certificate, SmocError>)
    ensures keyFilename !in env.pemFiles <==> r == Failure(PublicKeyFileNotFound(keyFilename))
    ensures r.Success? <==> keyFilename in env.pemFiles && env.pemFiles[keyFilename].PemCertificate?
    ensures r.Success? ==> env.pemFiles[keyFilename] == PemCertificate(r.value)
    ensures keyFilename in env.pemFiles && env.pemFiles[keyFilename].PemOther? ==> r == Failure(NotACertificate(keyFilename))
    ensures keyFilename in env.pemFiles && env.pemFiles[keyFilename].PemNone? ==> r == Failure(NullDereference)
    ensures keyFilename in env.pemFiles && env.pemFiles[keyFilename].PemUnreadable? ==> r == Failure(IOError(keyFilename))
  {
    if keyFilename !in env.pemFiles then Failure(PublicKeyFileNotFound(keyFilename))
    else match env.pemFiles[keyFilename]
      case PemCertificate(certificate) => Success(certificate)
      case PemOther => Failure(NotACertificate(keyFilename))
      case PemNone => Failure(NullDereference)
      case PemUnreadable => Failure(IOError(keyFilename))
  }

  /** A certificate and its public key; the class has no private key at all. */
  class RecipientKeyStore {
    const publicKey: PublicKey
    const certificate: Certificate

    constructor (publicKey: PublicKey, certificate: Certificate)
      ensures this.publicKey == publicKey && this.certificate == certificate
    {
      this.publicKey := publicKey;
      this.certificate := certificate;
    }

    /** The Java constructor: check that the file exists, read the certificate, take its public key. */
    static method Load(env: Environment, keyFilename: string) returns (r: Result<RecipientKeyStore, SmocError>)
      ensures r.Failure? <==> ReadCertificate(env, keyFilename).Failure?
      ensures r.Failure? ==> r.error == ReadCertificate(env, keyFilename).error
      ensures r.Success? ==>
        && fresh(r.value)
        && ReadCertificate(env, keyFilename) == Success(r.value.certificate)
        && r.value.publicKey == r.value.certificate.publicKey
    {
      var publicKey: Option<PublicKey> := None;
      if keyFilename in env.pemFiles {
        var pem := env.pemFiles[keyFilename];
        if pem.PemOther? {
          return Failure(NotACertificate(keyFilename));
        }
        if pem.PemUnreadable? {
          // readObject throws before the cast.
          return Failure(IOError(keyFilename));
        }
        if pem.PemNone? {
          // The null object's getPublicKey is called.
          return Failure(NullDereference);
        }
        var certificateObject := pem.certificate;
        publicKey := Some(certificateObject.publicKey);
        var loaded := new RecipientKeyStore(publicKey.value, certificateObject);
        r := Success(loaded);
      } else {
        r := Failure(PublicKeyFileNotFound(keyFilename));
      }
    }
  }
}

=== FILE: sender_keys.dfy ===
/** SenderKeyStore: the sender's certificate and key pair, read from a protected key store. */
module SenderKeys {
  import opened Wrappers
  import opened Errors
  import opened Library

  /**
   * The key entry the constructor ends up with, as a value: the key store opened with the
   * pass phrase, the alias checked to be a key entry, and the private key recovered with the
   * same pass phrase. A secret-key entry is a key entry too, but it has no certificate: the
   * null certificate is dereferenced before any key is read.
   */
  function SenderKeyEntry(env: Environment, keyStoreFilename: string, keyAlias: string, keyStoreProvider: string,
                          keyStoreType: string, passphrase: string)
    : (r: Result<KeyStoreEntry, SmocError>)
    ensures OpenKeyStore(env, keyStoreFilename, keyStoreProvider, keyStoreType, passphrase).Failure? ==>
      r == Failure(OpenKeyStore(env, keyStoreFilename, keyStoreProvider, keyStoreType, passphrase).error)
    ensures OpenKeyStore(env, keyStoreFilename, keyStoreProvider, keyStoreType, passphrase).Success? &&
            !IsKeyEntry(env.keyStoreFiles[keyStoreFilename], keyAlias) ==>
      r == Failure(NoSuchCertificate(keyAlias, keyStoreFilename))
    ensures r.Success? ==>
      && keyStoreFilename in env.keyStoreFiles
      && env.keyStoreFiles[keyStoreFilename].storePassword == passphrase
      && keyAlias in env.keyStoreFiles[keyStoreFilename].entries
      && r.value == env.keyStoreFiles[keyStoreFilename].entries[keyAlias]
      && r.value.PrivateKeyEntry? && r.value.keyPassword == passphrase
    ensures OpenKeyStore(env, keyStoreFilename, keyStoreProvider, keyStoreType, passphrase).Success? &&
            IsKeyEntry(env.keyStoreFiles[keyStoreFilename], keyAlias) &&
            env.keyStoreFiles[keyStoreFilename].entries[keyAlias].SecretKeyEntry? ==>
      r == Failure(NullDereference)
    ensures OpenKeyStore(env, keyStoreFilename, keyStoreProvider, keyStoreType, passphrase).Success? &&
            IsKeyEntry(env.keyStoreFiles[keyStoreFilename], keyAlias) &&
            env.keyStoreFiles[keyStoreFilename].entries[keyAlias].PrivateKeyEntry? ==>
      var entry := env.keyStoreFiles[keyStoreFilename].entries[keyAlias];
      r == if entry.keyPassword == passphrase then Success(entry) else Failure(UnrecoverableKey(keyAlias))
    ensures r.Failure? && r.error.UnrecoverableKey? ==> r.error.alias == keyAlias
  {
    match OpenKeyStore(env, keyStoreFilename, keyStoreProvider, keyStoreType, passphrase)
    case Failure(e) => Failure(e)
    case Success(image) =>
      if !IsKeyEntry(image, keyAlias) then Failure(NoSuchCertificate(keyAlias, keyStoreFilename))
      else if image.entries[keyAlias].SecretKeyEntry? then Failure(NullDereference)
      else if image.entries[keyAlias].keyPassword != passphrase then Failure(UnrecoverableKey(keyAlias))
      else Success(image.entries[keyAlias])
  }

  /** The loaded key material. The fields are constants: the Java class has getters and no setters. */
  class SenderKeyStore {
    const certificate: Certificate
    const keyStoreProvider: string
    const privateKey: PrivateKey
    const publicKey: PublicKey

    constructor (certificate: Certificate, keyStoreProvider: string, privateKey: PrivateKey, publicKey: PublicKey)
      ensures this.certificate == certificate && this.keyStoreProvider == keyStoreProvider
      ensures this.privateKey == privateKey && this.publicKey == publicKey
    {
      this.certificate := certificate;
      this.keyStoreProvider := keyStoreProvider;
      this.privateKey := privateKey;
      this.publicKey := publicKey;
    }

    /**
     * The Java constructor: open the key store with the pass phrase, check that the alias is a
     * key entry, then take its certificate, the certificate's public key and the private key
     * recovered with the same pass phrase.
     */
    static method Load(env: Environment, keyStoreFilename: string, keyAlias: string, keyStoreProvider: string,
                       keyStoreType: string, passphrase: string)
      returns (r: Result<SenderKeyStore, SmocError>)
      ensures r.Failure? <==> SenderKeyEntry(env, keyStoreFilename, keyAlias, keyStoreProvider, keyStoreType, passphrase).Failure?
      ensures r.Failure? ==>
        r.error == SenderKeyEntry(env, keyStoreFilename, keyAlias, keyStoreProvider, keyStoreType, passphrase).error
      ensures r.Success? ==>
        && fresh(r.value)
        && r.value.keyStoreProvider == keyStoreProvider
        && SenderKeyEntry(env, keyStoreFilename, keyAlias, keyStoreProvider, keyStoreType, passphrase).value
             == PrivateKeyEntry(r.value.certificate, r.value.privateKey, passphrase)
        && r.value.publicKey == r.value.certificate.publicKey
    {
      // The fields start out null; only the provider is known before the key store is read.
      var certificate: Option<Certificate> := None;
      var privateKey: Option<PrivateKey> := None;
      var publicKey: Option<PublicKey> := None;
      var keystore := OpenKeyStore(env, keyStoreFilename, keyStoreProvider, keyStoreType, passphrase);
      if keystore.Failure? {
        // An IOException while opening or loading the file is rethrown unchanged.
        return Failure(keystore.error);
      }
      if IsKeyEntry(keystore.value, keyAlias) {
        var entry := keystore.value.entries[keyAlias];
        if entry.SecretKeyEntry? {
          // getCertificate returns null for a secret key, and getPublicKey is called on it.
          return Failure(NullDereference);
        }
        certificate := Some(entry.certificate);
        publicKey := Some(certificate.value.publicKey);
        if entry.keyPassword != passphrase {
          return Failure(UnrecoverableKey(keyAlias));
        }
        privateKey := Some(entry.key);
      } else {
        return Failure(NoSuchCertificate(keyAlias, keyStoreFilename));
      }
      var loaded := new SenderKeyStore(certificate.value, keyStoreProvider, privateKey.value, publicKey.value);
      r := Success(loaded);
    }
  }
}

=== FILE: signer.dfy ===
/**
 * SmocSigner: an S/MIME signature generator set up for the sender, and the signing of a
 * composed message body.
 */
module Signer {
  import opened Wrappers
  import opened Errors
  import opened Library
  import SenderKeys
  import Smime

  /** The capabilities the sender advertises, most preferred first (section 2.5.2 of RFC 5751). */
  const PreferredCapabilities: seq<SmimeCapability> := [
    SmimeCapability(Aes128Cbc, None),
    SmimeCapability(Aes192Cbc, None),
    SmimeCapability(Aes256Cbc, None),
    SmimeCapability(DesCbc, None),
    SmimeCapability(DesEde3Cbc, None),
    SmimeCapability(Rc2Cbc, Some(128))
  ]

  /** The CMS constant that denotes the same cipher as a capability, if the lookup table has one. */
  function CapabilityAlgorithm(id: SmimeCapabilityId): Option<CmsAlgorithm> {
    match id
    case Aes128Cbc => Some(AES128_CBC)
    case Aes192Cbc => Some(AES192_CBC)
    case Aes256Cbc => Some(AES256_CBC)
    case DesCbc => None
    case DesEde3Cbc => Some(DES_EDE3_CBC)
    case Rc2Cbc => Some(RC2_CBC)
  }

  /**
   * The advertised capabilities are six distinct ciphers, in the order AES-128, AES-192,
   * AES-256, DES, triple DES, RC2; only RC2 names a key size, 128 bits.
   */
  lemma PreferredCapabilitiesOrder()
    ensures |PreferredCapabilities| == 6
    ensures forall i, j :: 0 <= i < j < |PreferredCapabilities| ==> PreferredCapabilities[i].id != PreferredCapabilities[j].id
    ensures forall c :: c in PreferredCapabilities ==> (c.keySize.Some? <==> c.id == Rc2Cbc)
    ensures SmimeCapability(Rc2Cbc, Some(128)) in PreferredCapabilities
    ensures PreferredCapabilities[0].id == Aes128Cbc && PreferredCapabilities[1].id == Aes192Cbc
    ensures PreferredCapabilities[2].id == Aes256Cbc && PreferredCapabilities[3].id == DesCbc
    ensures PreferredCapabilities[4].id == DesEde3Cbc && PreferredCapabilities[5].id == Rc2Cbc
  {
  }

  /**
   * Of the advertised ciphers, all but single DES can be chosen as the content encryption
   * algorithm by name: the name of each one's CMS constant selects it in the lookup table.
   */
  lemma AdvertisedCiphersAreConfigurable(c: SmimeCapability)
    requires c in PreferredCapabilities
    ensures CapabilityAlgorithm(c.id).Some? <==> c.id != DesCbc
    ensures CapabilityAlgorithm(c.id).Some? ==>
      Smime.CmsContentEncryptor(Smime.CmsName(CapabilityAlgorithm(c.id).value)) == Success(CapabilityAlgorithm(c.id).value)
  {
    if CapabilityAlgorithm(c.id).Some? {
      Smime.CmsNameSelectsConstant(CapabilityAlgorithm(c.id).value);
    }
  }

  /** Single DES is advertised, but no name selects it as the content encryption algorithm. */
  lemma SingleDesNotConfigurable()
    ensures SmimeCapability(DesCbc, None) in PreferredCapabilities
    ensures forall a: CmsAlgorithm :: Smime.CmsName(a) != "DES_CBC"
    ensures Smime.CmsContentEncryptor("DES_CBC") == Failure(InvalidCmsAlgorithm("DES_CBC"))
  {
    Smime.CmsLookupExamples();
    forall a: CmsAlgorithm ensures Smime.CmsName(a) != "DES_CBC" {
      Smime.CmsTableIsClosed("DES_CBC");
    }
  }

  /**
   * The message the signer returns, as a value. Unlike an envelope it keeps every header
   * line of the body, content ones included, in order.
   */
  function Signature(env: Environment, body: Snapshot, generator: SignedGenerator, provider: string)
    : (r: Result<Snapshot, SmocError>)
    ensures r.Failure? <==> !env.library.signs(body.content, generator, provider)
    ensures r.Failure? ==> r.error == SigningFailure
    ensures r.Success? ==>
      && r.value.headers == body.headers
      && r.value.content.SignedMultipart?
      && r.value.content.signedPart == body.content
      && r.value.content.generator == generator
      && r.value.content.provider == provider
  {
    if env.library.signs(body.content, generator, provider)
    then Success(Snapshot(body.headers, SignedMultipart(body.content, generator, provider)))
    else Failure(SigningFailure)
  }

  /**
   * A generator set up for the sender: one signer info, built from the signature algorithm,
   * the sender's private key and certificate and the key store's provider, whose signed
   * attributes are the encryption key preference for the certificate's issuer and serial
   * number followed by the capabilities; and a certificate store holding just the certificate.
   */
  predicate IsSenderGenerator(generator: SignedGenerator, signAlgorithm: string, privateKey: PrivateKey,
                              certificate: Certificate, provider: string)
  {
    && generator.certificates == [certificate]
    && |generator.signerInfos| == 1
    && generator.signerInfos[0].signAlgorithm == signAlgorithm
    && generator.signerInfos[0].privateKey == privateKey
    && generator.signerInfos[0].certificate == certificate
    && generator.signerInfos[0].provider == provider
    && generator.signerInfos[0].signedAttributes == [
         EncryptionKeyPreference(IssuerAndSerialNumber(certificate.issuer, certificate.serialNumber)),
         SmimeCapabilities(PreferredCapabilities)]
  }

  /** The generator the Java constructor builds for the sender. */
  function SenderGenerator(signAlgorithm: string, privateKey: PrivateKey, certificate: Certificate, provider: string)
    : (g: SignedGenerator)
    ensures IsSenderGenerator(g, signAlgorithm, privateKey, certificate, provider)
  {
    SignedGenerator(
      [SignerInfo(signAlgorithm, privateKey, certificate, provider,
                  [EncryptionKeyPreference(IssuerAndSerialNumber(certificate.issuer, certificate.serialNumber)),
                   SmimeCapabilities(PreferredCapabilities)])],
      [certificate])
  }

  /** The description of a sender's generator leaves no freedom: it is exactly SenderGenerator. */
  lemma SenderGeneratorUnique(generator: SignedGenerator, signAlgorithm: string, privateKey: PrivateKey,
                              certificate: Certificate, provider: string)
    requires IsSenderGenerator(generator, signAlgorithm, privateKey, certificate, provider)
    ensures generator == SenderGenerator(signAlgorithm, privateKey, certificate, provider)
  {
    assert generator.signerInfos == [generator.signerInfos[0]];
  }

  /** A signature generator for the sender, holding one signer info and the sender's certificate. */
  class SmocSigner {
    const senderKeyStore: SenderKeys.SenderKeyStore
    const signer: SignedGenerator

    constructor (senderKeyStore: SenderKeys.SenderKeyStore, signer: SignedGenerator)
      ensures this.senderKeyStore == senderKeyStore && this.signer == signer
    {
      this.senderKeyStore := senderKeyStore;
      this.signer := signer;
    }

    /**
     * The Java constructor: the capability vector and the two signed attributes are built
     * up in order, the signer info is built with the sender's key, certificate and provider,
     * and the certificate store is filled with the sender's certificate.
     */
    static method Create(env: Environment, senderKeyStore: SenderKeys.SenderKeyStore, signAlgorithm: string)
      returns (r: Result<SmocSigner, SmocError>)
      ensures r.Failure? <==>
        !env.library.buildsSignerInfo(signAlgorithm, senderKeyStore.privateKey, senderKeyStore.certificate,
                                      senderKeyStore.keyStoreProvider)
      ensures r.Failure? ==> r.error == OperatorCreation(signAlgorithm)
      ensures r.Success? ==>
        && fresh(r.value)
        && r.value.senderKeyStore == senderKeyStore
        && IsSenderGenerator(r.value.signer, signAlgorithm, senderKeyStore.privateKey, senderKeyStore.certificate,
                             senderKeyStore.keyStoreProvider)
    {
      var capabilities: seq<SmimeCapability> := [];
      capabilities := capabilities + [SmimeCapability(Aes128Cbc, None)];
      capabilities := capabilities + [SmimeCapability(Aes192Cbc, None)];
      capabilities := capabilities + [SmimeCapability(Aes256Cbc, None)];
      capabilities := capabilities + [SmimeCapability(DesCbc, None)];
      capabilities := capabilities + [SmimeCapability(DesEde3Cbc, None)];
      capabilities := capabilities + [SmimeCapability(Rc2Cbc, Some(128))];
      assert capabilities == PreferredCapabilities;

      var certificate := senderKeyStore.certificate;
      var issuerAndSerialNumber := IssuerAndSerialNumber(certificate.issuer, certificate.serialNumber);

      var attributes: seq<Attribute> := [];
      attributes := attributes + [EncryptionKeyPreference(issuerAndSerialNumber)];
      attributes := attributes + [SmimeCapabilities(capabilities)];

      var signer := SignedGenerator([], []);
      var provider := senderKeyStore.keyStoreProvider;
      if !env.library.buildsSignerInfo(signAlgorithm, senderKeyStore.privateKey, certificate, provider) {
        return Failure(OperatorCreation(signAlgorithm));
      }
      var signerInfo := SignerInfo(signAlgorithm, senderKeyStore.privateKey, certificate, provider, attributes);
      signer := signer.(signerInfos := signer.signerInfos + [signerInfo]);

      var certificatesList: seq<Certificate> := [];
      certificatesList := certificatesList + [certificate];
      signer := signer.(certificates := signer.certificates + certificatesList);

      var created := new SmocSigner(senderKeyStore, signer);
      r := Success(created);
    }

    /**
     * sign: the generator signs the body's content with the sender key store's provider;
     * a new message receives every header line of the body, in order, then the signed content.
     */
    method Sign(env: Environment, body: MimeMessage) returns (r: Result<MimeMessage, SmocError>)
      ensures r.Success? ==> fresh(r.value)
      ensures Observe(r) == Signature(env, SnapshotOf(body), signer, senderKeyStore.keyStoreProvider)
    {
      var provider := senderKeyStore.keyStoreProvider;
      if !env.library.signs(body.content, signer, provider) {
        return Failure(SigningFailure);
      }
      var mm := SignedMultipart(body.content, signer, provider);
      var signedMessage := new MimeMessage();
      var headers := body.headers;
      var i := 0;
      while i < |headers|
        invariant 0 <= i <= |headers|
        invariant signedMessage.headers == headers[..i]
        invariant signedMessage.content == NoContent
      {
        assert headers[..i + 1] == headers[..i] + [headers[i]];
        signedMessage.AddHeaderLine(headers[i]);
        i := i + 1;
      }
      assert headers[..i] == headers;
      signedMessage.SetContent(mm);
      r := Success(signedMessage);
    }
  }
}

=== FILE: smime.dfy ===
/**
 * Smime: the CMS content-encryption algorithm table, the header carry-over onto an envelope,
 * and the two envelopes SMOC makes of one signed message (for the recipient, for the sender).
 */
module Smime {
  import opened Wrappers
  import opened Errors
  import opened Library
  import RecipientKeys
  import SenderKeys

  // ---------------------------------------------------------------------------------------
  // The algorithm table (getCmsContentEncryptor)
  // ---------------------------------------------------------------------------------------

  /**
   * The CMS constant a configured algorithm name stands for: the cases of the switch. The
   * match is exact and case-sensitive; no other name stands for a constant.
   */
  function CmsConstant(cmsAlgorithm: string): Option<CmsAlgorithm> {
    match cmsAlgorithm
    case "AES128_CBC" => Some(AES128_CBC)
    case "AES128_WRAP" => Some(AES128_WRAP)
    case "AES192_CBC" => Some(AES192_CBC)
    case "AES192_WRAP" => Some(AES192_WRAP)
    case "AES256_CBC" => Some(AES256_CBC)
    case "AES256_WRAP" => Some(AES256_WRAP)
    case "CAMELLIA128_CBC" => Some(CAMELLIA128_CBC)
    case "CAMELLIA128_WRAP" => Some(CAMELLIA128_WRAP)
    case "CAMELLIA192_CBC" => Some(CAMELLIA192_CBC)
    case "CAMELLIA192_WRAP" => Some(CAMELLIA192_WRAP)
    case "CAMELLIA256_CBC" => Some(CAMELLIA256_CBC)
    case "CAMELLIA256_WRAP" => Some(CAMELLIA256_WRAP)
    case "CAST5_CBC" => Some(CAST5_CBC)
    case "DES_EDE3_CBC" => Some(DES_EDE3_CBC)
    case "DES_EDE3_WRAP" => Some(DES_EDE3_WRAP)
    case "ECDH_SHA1KDF" => Some(ECDH_SHA1KDF)
    case "ECMQV_SHA1KDF" => Some(ECMQV_SHA1KDF)
    case "GOST3411" => Some(GOST3411)
    case "IDEA_CBC" => Some(IDEA_CBC)
    case "MD5" => Some(MD5)
    case "RC2_CBC" => Some(RC2_CBC)
    case "RIPEMD128" => Some(RIPEMD128)
    case "RIPEMD160" => Some(RIPEMD160)
    case "RIPEMD256" => Some(RIPEMD256)
    case "SEED_CBC" => Some(SEED_CBC)
    case "SEED_WRAP" => Some(SEED_WRAP)
    case "SHA1" => Some(SHA1)
    case "SHA224" => Some(SHA224)
    case "SHA256" => Some(SHA256)
    case "SHA384" => Some(SHA384)
    case "SHA512" => Some(SHA512)
    case _ => None
  }

  /**
   * The content encryptor for a configured algorithm name, represented by the CMS constant
   * it is built around: an accepted name is exactly that constant's name, and every other
   * name is refused with an error carrying it.
   */
  function CmsContentEncryptor(cmsAlgorithm: string): (r: Result<CmsAlgorithm, SmocError>)
    ensures r.Success? ==> CmsName(r.value) == cmsAlgorithm
    ensures r.Failure? ==> r.error == InvalidCmsAlgorithm(cmsAlgorithm)
  {
    CmsConstantIsExact(cmsAlgorithm);
    match CmsConstant(cmsAlgorithm)
    case None => Failure(InvalidCmsAlgorithm(cmsAlgorithm))
    case Some(algorithm) => Success(algorithm)
  }

  /** The name of a CMS constant. */
  function CmsName(a: CmsAlgorithm): string {
    match a
    case AES128_CBC => "AES128_CBC"
    case AES128_WRAP => "AES128_WRAP"
    case AES192_CBC => "AES192_CBC"
    case AES192_WRAP => "AES192_WRAP"
    case AES256_CBC => "AES256_CBC"
    case AES256_WRAP => "AES256_WRAP"
    case CAMELLIA128_CBC => "CAMELLIA128_CBC"
    case CAMELLIA128_WRAP => "CAMELLIA128_WRAP"
    case CAMELLIA192_CBC => "CAMELLIA192_CBC"
    case CAMELLIA192_WRAP => "CAMELLIA192_WRAP"
    case CAMELLIA256_CBC => "CAMELLIA256_CBC"
    case CAMELLIA256_WRAP => "CAMELLIA256_WRAP"
    case CAST5_CBC => "CAST5_CBC"
    case DES_EDE3_CBC => "DES_EDE3_CBC"
    case DES_EDE3_WRAP => "DES_EDE3_WRAP"
    case ECDH_SHA1KDF => "ECDH_SHA1KDF"
    case ECMQV_SHA1KDF => "ECMQV_SHA1KDF"
    case GOST3411 => "GOST3411"
    case IDEA_CBC => "IDEA_CBC"
    case MD5 => "MD5"
    case RC2_CBC => "RC2_CBC"
    case RIPEMD128 => "RIPEMD128"
    case RIPEMD160 => "RIPEMD160"
    case RIPEMD256 => "RIPEMD256"
    case SEED_CBC => "SEED_CBC"
    case SEED_WRAP => "SEED_WRAP"
    case SHA1 => "SHA1"
    case SHA224 => "SHA224"
    case SHA256 => "SHA256"
    case SHA384 => "SHA384"
    case SHA512 => "SHA512"
  }

  /** Every constant's own name selects that constant. */
  lemma CmsNameSelectsConstant(a: CmsAlgorithm)
    ensures CmsConstant(CmsName(a)) == Some(a)
    ensures CmsContentEncryptor(CmsName(a)) == Success(a)
  {
    match a
    case AES128_CBC | AES128_WRAP | AES192_CBC | AES192_WRAP | AES256_CBC | AES256_WRAP
       | CAMELLIA128_CBC | CAMELLIA128_WRAP | CAMELLIA192_CBC | CAMELLIA192_WRAP | CAMELLIA256_CBC | CAMELLIA256_WRAP =>
      CmsNameSelectsAesOrCamellia(a);
    case CAST5_CBC | DES_EDE3_CBC | DES_EDE3_WRAP | ECDH_SHA1KDF | ECMQV_SHA1KDF | GOST3411 | IDEA_CBC | MD5 | RC2_CBC =>
      CmsNameSelectsCastToRc2(a);
    case RIPEMD128 | RIPEMD160 | RIPEMD256 | SEED_CBC | SEED_WRAP | SHA1 | SHA224 | SHA256 | SHA384 | SHA512 =>
      CmsNameSelectsRipemdOrSha(a);
  }

  /** The names of the AES and Camellia constants select them. */
  lemma CmsNameSelectsAesOrCamellia(a: CmsAlgorithm)
    requires || a.AES128_CBC? || a.AES128_WRAP? || a.AES192_CBC? || a.AES192_WRAP? || a.AES256_CBC? || a.AES256_WRAP?
             || a.CAMELLIA128_CBC? || a.CAMELLIA128_WRAP? || a.CAMELLIA192_CBC? || a.CAMELLIA192_WRAP? || a.CAMELLIA256_CBC? || a.CAMELLIA256_WRAP?
    ensures CmsConstant(CmsName(a)) == Some(a)
  {
    match a
    case _ =>
  }

  /** The names of the constants from CAST5 to RC2 select them. */
  lemma CmsNameSelectsCastToRc2(a: CmsAlgorithm)
    requires || a.CAST5_CBC? || a.DES_EDE3_CBC? || a.DES_EDE3_WRAP? || a.ECDH_SHA1KDF? || a.ECMQV_SHA1KDF?
             || a.GOST3411? || a.IDEA_CBC? || a.MD5? || a.RC2_CBC?
    ensures CmsConstant(CmsName(a)) == Some(a)
  {
    match a
    case _ =>
  }

  /** The names of the RIPEMD, SEED and SHA constants select them. */
  lemma CmsNameSelectsRipemdOrSha(a: CmsAlgorithm)
    requires || a.RIPEMD128? || a.RIPEMD160? || a.RIPEMD256? || a.SEED_CBC? || a.SEED_WRAP?
             || a.SHA1? || a.SHA224? || a.SHA256? || a.SHA384? || a.SHA512?
    ensures CmsConstant(CmsName(a)) == Some(a)
  {
    match a
    case _ =>
  }

  /** Distinct names select distinct constants, and distinct constants have distinct names. */
  lemma CmsTableInjective(a: CmsAlgorithm, b: CmsAlgorithm)
    ensures CmsName(a) == CmsName(b) <==> a == b
  {
    CmsNameSelectsConstant(a);
    CmsNameSelectsConstant(b);
  }

  /** Whatever the switch accepts is the constant of that very name. */
  lemma CmsConstantIsExact(cmsAlgorithm: string)
    ensures CmsConstant(cmsAlgorithm).Some? ==> CmsName(CmsConstant(cmsAlgorithm).value) == cmsAlgorithm
  {
    var r := CmsConstant(cmsAlgorithm);
    if r.Some? {
      match r.value
      case _ =>
    }
  }

  /** The table is closed: a name is accepted exactly when it is the name of some CMS constant. */
  lemma CmsTableIsClosed(cmsAlgorithm: string)
    ensures CmsContentEncryptor(cmsAlgorithm).Success? <==> exists a: CmsAlgorithm :: CmsName(a) == cmsAlgorithm
  {
    var r := CmsContentEncryptor(cmsAlgorithm);
    if r.Success? {
      assert CmsName(r.value) == cmsAlgorithm;
    }
    if a: CmsAlgorithm :| CmsName(a) == cmsAlgorithm {
      CmsNameSelectsConstant(a);
    }
  }

  /** Case matters and unknown names fail, carrying the name. */
  lemma CmsLookupExamples()
    ensures CmsContentEncryptor("AES256_CBC") == Success(AES256_CBC)
    ensures CmsContentEncryptor("aes128_cbc") == Failure(InvalidCmsAlgorithm("aes128_cbc"))
    ensures CmsContentEncryptor("FOO") == Failure(InvalidCmsAlgorithm("FOO"))
    ensures CmsContentEncryptor("DES_CBC") == Failure(InvalidCmsAlgorithm("DES_CBC"))
  {
  }

  // ---------------------------------------------------------------------------------------
  // Header carry-over
  // ---------------------------------------------------------------------------------------

  /** BouncyCastle's Strings.toLowerCase changes only the ASCII capitals A to Z. */
  function LowerAscii(c: char): char {
    if 'A' <= c <= 'Z' then (c as int - 'A' as int + 'a' as int) as char else c
  }

  /** The same text with every ASCII capital replaced by its small letter and nothing else changed. */
  function ToLowerCase(s: string): (r: string)
    ensures |r| == |s|
    ensures forall i :: 0 <= i < |r| ==> !('A' <= r[i] <= 'Z')
    ensures forall i :: 0 <= i < |s| ==>
      if 'A' <= s[i] <= 'Z' then r[i] as int == s[i] as int + 32 else r[i] == s[i]
  {
    seq(|s|, i requires 0 <= i < |s| => LowerAscii(s[i]))
  }

  /**
   * A header line about content framing: its lower-cased text starts with "content-". Only
   * the first eight characters matter, each compared without regard to ASCII case.
   */
  predicate IsContentHeader(headerLine: string)
    ensures IsContentHeader(headerLine) <==>
      |headerLine| >= 8 && forall i :: 0 <= i < 8 ==> LowerAscii(headerLine[i]) == "content-"[i]
  {
    "content-" <= ToLowerCase(headerLine)
  }

  /** The header lines of the original message that are carried onto an envelope, in order. */
  function FilterHeaders(headers: seq<string>): (r: seq<string>)
    ensures forall line :: line in r <==> line in headers && !IsContentHeader(line)
    decreases |headers|
  {
    if headers == [] then []
    else
      var kept := FilterHeaders(headers[..|headers| - 1]);
      var last := headers[|headers| - 1];
      if IsContentHeader(last) then kept else kept + [last]
  }

  /** One line is kept unchanged exactly when it is not a content header. */
  lemma FilterHeadersSingle(line: string)
    ensures FilterHeaders([line]) == if IsContentHeader(line) then [] else [line]
  {
    assert [line][..0] == [];
  }

  /** Filtering distributes over concatenation: lines keep their order and are judged one by one. */
  lemma {:induction false} FilterHeadersAppend(a: seq<string>, b: seq<string>)
    ensures FilterHeaders(a + b) == FilterHeaders(a) + FilterHeaders(b)
    decreases |b|
  {
    if b == [] {
      assert a + b == a;
    } else {
      var front := b[..|b| - 1];
      assert (a + b)[..|a + b| - 1] == a + front;
      assert (a + b)[|a + b| - 1] == b[|b| - 1];
      FilterHeadersAppend(a, front);
    }
  }

  /** Each non-content line occurs as often as in the original; a content line never occurs. */
  lemma {:induction false} FilterHeadersCounts(headers: seq<string>, line: string)
    ensures multiset(FilterHeaders(headers))[line] == if IsContentHeader(line) then 0 else multiset(headers)[line]
    decreases |headers|
  {
    if headers != [] {
      var front := headers[..|headers| - 1];
      assert headers == front + [headers[|headers| - 1]];
      FilterHeadersCounts(front, line);
    }
  }

  /** Filtering twice changes nothing. */
  lemma {:induction false} FilterHeadersIdempotent(headers: seq<string>)
    ensures FilterHeaders(FilterHeaders(headers)) == FilterHeaders(headers)
    decreases |headers|
  {
    if headers != [] {
      var front := headers[..|headers| - 1];
      var last := headers[|headers| - 1];
      FilterHeadersIdempotent(front);
      if !IsContentHeader(last) {
        FilterHeadersAppend(FilterHeaders(front), [last]);
        FilterHeadersSingle(last);
      }
    }
  }

  /** A line whose first characters lower-case to `prefix` has `prefix` at the head of its lower-cased text. */
  lemma LowerCasePrefix(line: string, prefix: string)
    requires |prefix| <= |line|
    requires forall i :: 0 <= i < |prefix| ==> LowerAscii(line[i]) == prefix[i]
    ensures prefix <= ToLowerCase(line)
  {
  }

  /** The prefix test ignores ASCII case and looks only at the start of the line. */
  lemma ContentHeaderExamples()
    ensures IsContentHeader("Content-Type: text/plain; charset=utf-8")
    ensures IsContentHeader("CONTENT-ID: <part1>")
    ensures IsContentHeader("content-transfer-encoding: 7bit")
    ensures !IsContentHeader("X-Content-Foo: bar")
    ensures !IsContentHeader("Subject: content-free")
  {
    LowerCasePrefix("Content-Type: text/plain; charset=utf-8", "content-");
    LowerCasePrefix("CONTENT-ID: <part1>", "content-");
    LowerCasePrefix("content-transfer-encoding: 7bit", "content-");
    assert ToLowerCase("X-Content-Foo: bar")[0] == 'x';
    assert ToLowerCase("Subject: content-free")[0] == 's';
  }

  /** Content headers are dropped whatever their case; the other lines stay, in order. */
  lemma FilterHeadersExample()
    ensures FilterHeaders(["From: a", "Content-Type: text/plain", "CONTENT-ID: x", "X-Content-Foo: y"])
         == ["From: a", "X-Content-Foo: y"]
  {
    var from, kind, id, custom := "From: a", "Content-Type: text/plain", "CONTENT-ID: x", "X-Content-Foo: y";
    ExampleLinesClassified();
    FilterHeadersSingle(from);
    assert [from, kind][..1] == [from];
    assert [from, kind, id][..2] == [from, kind];
    assert [from, kind, id, custom][..3] == [from, kind, id];
  }

  /** Which of the example's lines are content headers. */
  lemma ExampleLinesClassified()
    ensures !IsContentHeader("From: a") && !IsContentHeader("X-Content-Foo: y")
    ensures IsContentHeader("Content-Type: text/plain") && IsContentHeader("CONTENT-ID: x")
  {
    LowerCasePrefix("Content-Type: text/plain", "content-");
    LowerCasePrefix("CONTENT-ID: x", "content-");
    assert ToLowerCase("From: a")[0] == 'f';
    assert ToLowerCase("X-Content-Foo: y")[0] == 'x';
  }

  // ---------------------------------------------------------------------------------------
  // The envelopes
  // ---------------------------------------------------------------------------------------

  /**
   * The message an envelope method returns, as a value: the signed content enveloped for
   * `recipient` under the named algorithm with the given provider, carrying the original
   * message's non-content header lines. The recipient's certificate is encoded first; then an
   * unknown name fails before anything is encrypted.
   */
  function Envelope(env: Environment, signedContent: Content, originalHeaders: seq<string>,
                    recipient: Certificate, provider: string, cmsAlgorithm: string)
    : (r: Result<Snapshot, SmocError>)
    ensures !env.library.encodesCertificate(recipient) ==> r == Failure(CertificateEncoding)
    ensures env.library.encodesCertificate(recipient) && CmsContentEncryptor(cmsAlgorithm).Failure? ==>
      r == Failure(InvalidCmsAlgorithm(cmsAlgorithm))
    ensures env.library.encodesCertificate(recipient) && CmsContentEncryptor(cmsAlgorithm).Success? ==>
      (r.Success? <==> env.library.envelopes(signedContent, recipient, CmsContentEncryptor(cmsAlgorithm).value, provider))
    ensures r.Failure? ==> r.error in {CertificateEncoding, InvalidCmsAlgorithm(cmsAlgorithm), EnvelopeFailure}
    ensures r.Success? ==>
      && r.value.content.Enveloped?
      && r.value.content.encryptedPart == signedContent
      && r.value.content.recipient == recipient
      && r.value.content.provider == provider
      && CmsName(r.value.content.algorithm) == cmsAlgorithm
      && forall line :: line in r.value.headers <==> line in originalHeaders && !IsContentHeader(line)
  {
    if !env.library.encodesCertificate(recipient) then Failure(CertificateEncoding)
    else match CmsContentEncryptor(cmsAlgorithm)
    case Failure(e) => Failure(e)
    case Success(algorithm) =>
      if env.library.envelopes(signedContent, recipient, algorithm, provider)
      then Success(Snapshot(FilterHeaders(originalHeaders), Enveloped(signedContent, recipient, algorithm, provider)))
      else Failure(EnvelopeFailure)
  }

  /**
   * Two envelopes of the same signed content and original headers under the same algorithm
   * name differ only in the certificate they are keyed to.
   */
  lemma EnvelopesDifferOnlyInRecipient(env: Environment, signedContent: Content, originalHeaders: seq<string>,
                                       first: Certificate, second: Certificate, provider: string, cmsAlgorithm: string)
    requires Envelope(env, signedContent, originalHeaders, first, provider, cmsAlgorithm).Success?
    requires Envelope(env, signedContent, originalHeaders, second, provider, cmsAlgorithm).Success?
    ensures
      var a := Envelope(env, signedContent, originalHeaders, first, provider, cmsAlgorithm).value;
      var b := Envelope(env, signedContent, originalHeaders, second, provider, cmsAlgorithm).value;
      a.headers == b.headers && a.content.(recipient := second) == b.content
  {
  }

  /** Encrypts a signed message for the recipient and for the sender's own archive copy. */
  class Smime {
    const recipientKeyStore: RecipientKeys.RecipientKeyStore
    const senderKeyStore: SenderKeys.SenderKeyStore

    constructor (recipientKeyStore: RecipientKeys.RecipientKeyStore, senderKeyStore: SenderKeys.SenderKeyStore)
      ensures this.recipientKeyStore == recipientKeyStore && this.senderKeyStore == senderKeyStore
    {
      this.recipientKeyStore := recipientKeyStore;
      this.senderKeyStore := senderKeyStore;
    }

    /** The envelope for the recipient: keyed to the recipient's certificate. */
    method EncryptForRecipient(env: Environment, signedMessage: MimeMessage, originalMessage: MimeMessage,
                               cmsAlgorithm: string)
      returns (r: Result<MimeMessage, SmocError>)
      ensures r.Success? ==> fresh(r.value)
      ensures Observe(r) == Envelope(env, signedMessage.content, originalMessage.headers,
                                     recipientKeyStore.certificate, senderKeyStore.keyStoreProvider, cmsAlgorithm)
    {
      r := EncryptFor(env, signedMessage, originalMessage, recipientKeyStore.certificate, cmsAlgorithm);
    }

    /** The envelope for the sender's Sent Items copy: keyed to the sender's own certificate. */
    method EncryptForSender(env: Environment, signedMessage: MimeMessage, originalMessage: MimeMessage,
                            cmsAlgorithm: string)
      returns (r: Result<MimeMessage, SmocError>)
      ensures r.Success? ==> fresh(r.value)
      ensures Observe(r) == Envelope(env, signedMessage.content, originalMessage.headers,
                                     senderKeyStore.certificate, senderKeyStore.keyStoreProvider, cmsAlgorithm)
    {
      r := EncryptFor(env, signedMessage, originalMessage, senderKeyStore.certificate, cmsAlgorithm);
    }

    /**
     * The body both Java methods share: one key-transport recipient, the content encryptor
     * from the table, both with the sender key store's provider; then the original message's
     * header lines are added one by one, skipping the content ones.
     */
    method EncryptFor(env: Environment, signedMessage: MimeMessage, originalMessage: MimeMessage,
                      recipient: Certificate, cmsAlgorithm: string)
      returns (r: Result<MimeMessage, SmocError>)
      ensures r.Success? ==> fresh(r.value)
      ensures Observe(r) == Envelope(env, signedMessage.content, originalMessage.headers,
                                     recipient, senderKeyStore.keyStoreProvider, cmsAlgorithm)
    {
      var provider := senderKeyStore.keyStoreProvider;
      if !env.library.encodesCertificate(recipient) {
        return Failure(CertificateEncoding);
      }
      var algorithm := CmsContentEncryptor(cmsAlgorithm);
      if algorithm.Failure? {
        return Failure(algorithm.error);
      }
      if !env.library.envelopes(signedMessage.content, recipient, algorithm.value, provider) {
        return Failure(EnvelopeFailure);
      }
      var encryptedMessage := new MimeMessage.FromPart(
        Enveloped(signedMessage.content, recipient, algorithm.value, provider));
      CopyNonContentHeaders(originalMessage.headers, encryptedMessage);
      assert encryptedMessage.headers == FilterHeaders(originalMessage.headers);
      r := Success(encryptedMessage);
    }
  }

  /** The header loop of both Java methods: every line of `headers` that is not a content header is added, in order. */
  method CopyNonContentHeaders(headers: seq<string>, message: MimeMessage)
    modifies message
    ensures message.headers == old(message.headers) + FilterHeaders(headers)
    ensures message.content == old(message.content)
  {
    var i := 0;
    while i < |headers|
      invariant 0 <= i <= |headers|
      invariant message.headers == old(message.headers) + FilterHeaders(headers[..i])
      invariant message.content == old(message.content)
    {
      var headerLine := headers[i];
      assert headers[..i + 1][..i] == headers[..i];
      if !IsContentHeader(headerLine) {
        message.AddHeaderLine(headerLine);
      }
      i := i + 1;
    }
    assert headers[..i] == headers;
  }
}

=== FILE: smtp_mail.dfy ===
/**
 * SMTPMailer: the session properties of the outgoing mail connection, the composition of
 * the plain-text message body and its hand-over to the mail transport.
 */
module SmtpMail {
  import opened Wrappers
  import opened Errors
  import opened Library

  /** The port used until setPort is called. */
  const DefaultPort := "25"

  /** The MIME type of the composed body. */
  const BodyMimeType := "text/plain; charset=utf-8"

  /** A display name and an address in the form the mailer writes them: "name"< address >. */
  function Quoted(name: string, address: string): (r: string)
    ensures |r| == |name| + |address| + 6
    ensures r[0] == '"' && r[|name| + 1] == '"'
    ensures r[1..|name| + 1] == name && r[|name| + 4..|r| - 2] == address
    ensures r[|name| + 2..|name| + 4] == "< " && r[|r| - 2..] == " >"
  {
    "\"" + name + "\"< " + address + " >"
  }

  /**
   * For names without a double quote, the written form determines both the name and the
   * address: no two different (name, address) pairs are written the same way.
   */
  lemma QuotedInjective(name1: string, address1: string, name2: string, address2: string)
    requires '"' !in name1 && '"' !in name2
    requires Quoted(name1, address1) == Quoted(name2, address2)
    ensures name1 == name2 && address1 == address2
  {
    var s := Quoted(name1, address1);
    if |name1| < |name2| {
      assert false;
    } else if |name2| < |name1| {
      assert false;
    }
  }

  /** The four session properties the mailer sets, over whatever the properties held before. */
  function WithMailerProperties(properties: map<string, string>, username: string, host: string, port: string)
    : (r: map<string, string>)
    ensures r.Keys == properties.Keys + {"mail.smtp.submitter", "mail.smtp.auth", "mail.smtp.host", "mail.smtp.port"}
    ensures r["mail.smtp.submitter"] == username && r["mail.smtp.auth"] == "true"
    ensures r["mail.smtp.host"] == host && r["mail.smtp.port"] == port
    ensures forall k :: k in properties && k !in {"mail.smtp.submitter", "mail.smtp.auth", "mail.smtp.host", "mail.smtp.port"} ==>
      r[k] == properties[k]
  {
    properties["mail.smtp.submitter" := username]["mail.smtp.auth" := "true"]["mail.smtp.host" := host]["mail.smtp.port" := port]
  }

  /**
   * The body createSmtpMessageBody returns, as a value: From, To and Subject lines and the
   * text as plain UTF-8 content. Either address string may be refused by the address parser.
   */
  function ComposedBody(env: Environment, from: string, to: string, subject: string, content: string)
    : (r: Result<Snapshot, SmocError>)
    ensures !env.library.acceptsAddress(from) ==> r == Failure(InvalidAddress(from))
    ensures env.library.acceptsAddress(from) && !env.library.acceptsAddress(to) ==> r == Failure(InvalidAddress(to))
    ensures r.Success? <==> env.library.acceptsAddress(from) && env.library.acceptsAddress(to)
    ensures r.Success? ==> r.value.content == Text(content, BodyMimeType) && |r.value.headers| == 3
  {
    if !env.library.acceptsAddress(from) then Failure(InvalidAddress(from))
    else if !env.library.acceptsAddress(to) then Failure(InvalidAddress(to))
    else Success(Snapshot(["From: " + from, "To: " + to, "Subject: " + subject], Text(content, BodyMimeType)))
  }

  /** The header lines of a composed body that start with `field`. */
  function LinesOf(headers: seq<string>, field: string): seq<string> {
    if headers == [] then []
    else (if field <= headers[0] then [headers[0]] else []) + LinesOf(headers[1..], field)
  }

  /** A composed body has exactly one sender line, one recipient line and one subject line. */
  lemma ComposedBodyHasOneOfEach(env: Environment, from: string, to: string, subject: string, content: string)
    requires ComposedBody(env, from, to, subject, content).Success?
    ensures
      var headers := ComposedBody(env, from, to, subject, content).value.headers;
      && LinesOf(headers, "From: ") == ["From: " + from]
      && LinesOf(headers, "To: ") == ["To: " + to]
      && LinesOf(headers, "Subject: ") == ["Subject: " + subject]
  {
    var headers := ComposedBody(env, from, to, subject, content).value.headers;
    var f, t, s := "From: " + from, "To: " + to, "Subject: " + subject;
    assert headers == [f, t, s];
    FieldLines([f, t, s], "From: ", [true, false, false]);
    FieldLines([f, t, s], "To: ", [false, true, false]);
    FieldLines([f, t, s], "Subject: ", [false, false, true]);
  }

  /** LinesOf for three lines, given which of them start with `field`. */
  lemma FieldLines(lines: seq<string>, field: string, starts: seq<bool>)
    requires |lines| == 3 && |starts| == 3 && field != []
    requires forall i :: 0 <= i < 3 ==> if starts[i] then field <= lines[i] else lines[i] != [] && lines[i][0] != field[0]
    ensures LinesOf(lines, field) == (if starts[0] then [lines[0]] else []) + (if starts[1] then [lines[1]] else [])
                                   + (if starts[2] then [lines[2]] else [])
  {
    assert lines[1..][1..][1..] == [];
    assert LinesOf(lines[1..][1..], field) == if starts[2] then [lines[2]] else [];
  }

  /** The SMTP side of SMOC: fixed sender and recipient, a port, and the session properties. */
  class SmtpMailer {
    const senderName: string
    const senderAddress: string
    const recipientName: Option<string>
    const recipientAddress: string
    const host: string
    const username: string
    const password: string
    var port: string
    var properties: map<string, string>

    /** The session properties agree with the mailer's own fields. */
    predicate SessionConfigured()
      reads this
    {
      && "mail.smtp.submitter" in properties && properties["mail.smtp.submitter"] == username
      && "mail.smtp.auth" in properties && properties["mail.smtp.auth"] == "true"
      && "mail.smtp.host" in properties && properties["mail.smtp.host"] == host
      && "mail.smtp.port" in properties && properties["mail.smtp.port"] == port
    }

    /** The six-argument constructor: no recipient name, port 25, the session properties set over the system ones. */
    constructor (env: Environment, senderName: string, senderAddress: string, recipientAddress: string,
                 host: string, username: string, password: string)
      ensures this.senderName == senderName && this.senderAddress == senderAddress
      ensures this.recipientName == None && this.recipientAddress == recipientAddress
      ensures this.host == host && this.username == username && this.password == password
      ensures port == DefaultPort
      ensures properties == WithMailerProperties(env.systemProperties, username, host, DefaultPort)
      ensures SessionConfigured()
    {
      this.port := DefaultPort;
      this.properties := env.systemProperties;
      this.recipientAddress := recipientAddress;
      this.recipientName := None;
      this.senderAddress := senderAddress;
      this.senderName := senderName;
      this.host := host;
      this.username := username;
      this.password := password;
      new;
      SetMailerProperties();
    }

    /** The seven-argument constructor: as the six-argument one, keeping the recipient's name. */
    constructor WithRecipientName(env: Environment, senderName: string, senderAddress: string, recipientName: string,
                                  recipientAddress: string, host: string, username: string, password: string)
      ensures this.senderName == senderName && this.senderAddress == senderAddress
      ensures this.recipientName == Some(recipientName) && this.recipientAddress == recipientAddress
      ensures this.host == host && this.username == username && this.password == password
      ensures port == DefaultPort
      ensures properties == WithMailerProperties(env.systemProperties, username, host, DefaultPort)
      ensures SessionConfigured()
    {
      this.port := DefaultPort;
      this.properties := env.systemProperties;
      this.recipientAddress := recipientAddress;
      this.recipientName := Some(recipientName);
      this.senderAddress := senderAddress;
      this.senderName := senderName;
      this.host := host;
      this.username := username;
      this.password := password;
      new;
      SetMailerProperties();
    }

    /** setPort: the new port, written through to the session properties. */
    method SetPort(port: string)
      modifies this
      ensures this.port == port
      ensures properties == WithMailerProperties(old(properties), username, host, port)
      ensures SessionConfigured()
      ensures forall k :: k in old(properties) && k != "mail.smtp.port" && old(SessionConfigured()) ==>
        k in properties && properties[k] == old(properties)[k]
    {
      this.port := port;
      SetMailerProperties();
    }

    /** setMailerProperties: user name, authentication, host and port into the session properties. */
    method SetMailerProperties()
      modifies this
      ensures port == old(port)
      ensures properties == WithMailerProperties(old(properties), username, host, port)
      ensures SessionConfigured()
    {
      properties := properties["mail.smtp.submitter" := username];
      properties := properties["mail.smtp.auth" := "true"];
      properties := properties["mail.smtp.host" := host];
      properties := properties["mail.smtp.port" := port];
    }

    /** The sender as written into the From line. */
    function FromAddress(): (r: string)
      ensures '"' !in senderName ==> forall name, address :: '"' !in name && Quoted(name, address) == r ==>
        name == senderName && address == senderAddress
    {
      QuotedFormDetermines(senderName, senderAddress, Quoted(senderName, senderAddress));
      Quoted(senderName, senderAddress)
    }

    /** The recipient as written into the To line: the bare address when there is no name. */
    function ToAddress(): (r: string)
      ensures recipientName.None? ==> r == recipientAddress
      ensures recipientName.Some? && '"' !in recipientName.value ==>
        forall name, address :: '"' !in name && Quoted(name, address) == r ==>
          name == recipientName.value && address == recipientAddress
    {
      match recipientName
      case None => recipientAddress
      case Some(name) =>
        QuotedFormDetermines(name, recipientAddress, Quoted(name, recipientAddress));
        Quoted(name, recipientAddress)
    }

    /**
     * createSmtpMessageBody: parse both addresses, then a new message with the sender, the one
     * recipient, the subject and the text content.
     */
    method CreateSmtpMessageBody(env: Environment, subject: string, content: string)
      returns (r: Result<MimeMessage, SmocError>)
      ensures r.Success? ==> fresh(r.value)
      ensures Observe(r) == ComposedBody(env, FromAddress(), ToAddress(), subject, content)
    {
      var sender := Quoted(senderName, senderAddress);
      if !env.library.acceptsAddress(sender) {
        return Failure(InvalidAddress(sender));
      }
      var recipient;
      if recipientName == None {
        recipient := recipientAddress;
      } else {
        recipient := Quoted(recipientName.value, recipientAddress);
      }
      if !env.library.acceptsAddress(recipient) {
        return Failure(InvalidAddress(recipient));
      }
      assert sender == FromAddress() && recipient == ToAddress();
      var body := new MimeMessage();
      body.AddHeaderLine("From: " + sender);
      body.AddHeaderLine("To: " + recipient);
      body.AddHeaderLine("Subject: " + subject);
      body.SetContent(Text(content, BodyMimeType));
      r := Success(body);
      assert SnapshotOf(body) == ComposedBody(env, FromAddress(), ToAddress(), subject, content).value;
    }

    /** send: the transport delivers the message under the current session properties, or fails. */
    method Send(env: Environment, message: MimeMessage) returns (o: Outcome<SmocError>)
      ensures o.Pass? <==> env.network.smtpDelivers(properties, message.headers, message.content)
      ensures o.Fail? ==> o.error == MessagingFailure
    {
      if env.network.smtpDelivers(properties, message.headers, message.content) {
        o := Pass;
      } else {
        o := Fail(MessagingFailure);
      }
    }
  }

  /** Every other (name, address) pair written the same way as `written` is the same pair. */
  lemma QuotedFormDetermines(name: string, address: string, written: string)
    requires written == Quoted(name, address)
    ensures '"' !in name ==> forall name', address' :: '"' !in name' && Quoted(name', address') == written ==>
      name' == name && address' == address
  {
    if '"' !in name {
      forall name', address' | '"' !in name' && Quoted(name', address') == written
        ensures name' == name && address' == address
      {
        QuotedInjective(name, address, name', address');
      }
    }
  }
}

=== FILE: wrappers.dfy ===
/** Option, Result and Outcome: the model's stand-ins for Java's null and checked exceptions. */
module Wrappers {

  /** A value that may be absent (a Java reference that may be null). */
  datatype Option<+T> = None | Some(value: T)

  /** The value of an operation that returns normally, or the exception it throws. */
  datatype Result<+T, +E> = Success(value: T) | Failure(error: E)

  /** The outcome of a void operation: it returns, or it throws. */
  datatype Outcome<+E> = Pass | Fail(error: E)
}
